=== FILE: README.md ===
# Farmy storefront — a Dafny model of its list and form logic

Farmy is a React grocery storefront with a seller back office. This
project models the logic inside its pages, not the rendering. The logic
modelled is:

- how the customer's cart (product id to quantity) is joined with the
  catalog;
- the cash-on-delivery order request and the card-payment request;
- how the cart and the busy flags change when the backend answers;
- the checkout page's choice between the backend cart and the context
  cart;
- the seller's order list: status tabs, local status update, deletion and
  expand flags;
- the dashboard statistics and the revenue figure;
- the customer's order history;
- the catalog pipelines: product lookup, related and other products,
  search, category page, best sellers and category tiles;
- the seller's product table and the "add product" form;
- the address form and the seller login.

One Dafny module stands for each page or component:

| module | page or component |
|---|---|
| `CartPage` | `src/pages/Cart.jsx` |
| `CheckoutPage` | `src/pages/CheckoutPage.jsx` |
| `CheckoutForm` | `src/components/CheckoutForm.jsx` |
| `OrdersList` | `src/pages/Seller/OrdersList.jsx` |
| `Dashboard` | `src/pages/Seller/Dashboard.jsx` |
| `MyOrders` | `src/pages/MyOrders.jsx` |
| `ProductDetails` | `src/pages/ProductDetails.jsx` |
| `AllProducts` | `src/pages/AllProducts.jsx` |
| `ProductCategory` | `src/pages/ProductCategory.jsx` |
| `BestSeller` | `src/components/BestSeller.jsx` |
| `Categories` | `src/components/Categories.jsx` |
| `ProductsList` | `src/pages/Seller/ProductsList.jsx` |
| `AddProduct` | `src/pages/Seller/AddProduct.jsx` |
| `AddAddress` | `src/pages/AddAddress.jsx` |
| `SellerLogin` | `src/components/Seller/SellerLogin.jsx` |

Three modules are shared:

- `Common` holds an `Option` type and the JavaScript operations the pages
  use: `||` on an optional message, ASCII `toLowerCase`/`toUpperCase`,
  `includes`, `filter`, `slice(0, n)`, `find` and `findIndex`. It also
  holds the subsequence relation that states "order is preserved".
- `Storefront` holds the shared records (product, category, address, cart
  entries, backend reply), the catalog lookup, the in-stock filter and the
  cart/catalog join.
- `Orders` holds the seller-side order record and the French status labels.
  `OrdersList.jsx` and `Dashboard.jsx` define the same `translateStatus`,
  so it is defined once here.

## Conventions

- Pages whose state the handlers change are classes. Each hook state
  variable is a field, and each handler is a method with a `modifies`
  clause.
- An async handler whose busy flag disables its own trigger, or records
  which row is pending, is split in two at the request. This applies to
  `placeOrder`, `handleSubmit` of the payment form and `handleDeleteOrder`.
  The `Begin…` method returns the request, and the `Finish…` method takes
  the backend's reply. The busy flag is observable between the two.
- Other handlers take the backend reply as a parameter. Every network
  reply is such a parameter (`Reply`, `CartReply`, `PaymentReply`,
  `DashboardReply`). The clock reading that stamps a new address and the
  user's answer to the delete confirmation are parameters too.
- Prices are integers in the smallest currency unit. `offerPrice` is an
  `Option<int>`, and it is truthy in the JavaScript sense when it is
  present and not 0.
- The cart `{ [productId]: quantity }` is a sequence of pairs in the
  object's key order.
- The context in `src/context/AppContext.jsx:13` provides only `navigate`,
  `user`, `isSeller` and `showUserLogin` (with their setters). The pages
  also read `products`, `cartItems`, `addresses`, `setAddresses` and
  `axios` from it, and the model takes those as inputs or state.

## Model

| member | source | states |
|---|---|---|
| Storefront.FindById | src/pages/ProductDetails.jsx:30-33 | the first catalog product with the id, or none exactly when no product has it |
| Storefront.Lookup | src/pages/ProductDetails.jsx:176 | `cartItems[id]`: a stored quantity for the id, or none exactly when no entry has the id |
| Storefront.JoinSpec | src/pages/Cart.jsx:27-39 | the joined lines are exactly the cart entries whose id is in the catalog, in key order, with the cart's quantity; each line carries the catalog's first product with that id |
| Storefront.JoinAppend | src/pages/Cart.jsx:30-37 | joining two cart parts end to end gives the two joins end to end |
| Storefront.JoinEmptyIff | src/pages/CheckoutPage.jsx:41-62 | the join is empty exactly when no cart id resolves in the catalog |
| Storefront.InStockOnly | src/components/BestSeller.jsx:13 | exactly the in-stock products, in catalog order, as many as are in stock |
| CartPage.CartView.GetCart | src/pages/Cart.jsx:27-39 | the loop over the cart keys leaves `cartArray` equal to the cart joined with the catalog |
| CartPage.OrderItems | src/pages/Cart.jsx:53-57 | one request item per line, with the product id, the quantity and the raw `offerPrice` as price (no fallback to `price`) |
| CartPage.CodOrderRequest | src/pages/Cart.jsx:50-64 | the request names the user, has one item per cart line (id, quantity, raw offer price) and ships to the selected address with its `pincode` as `zipCode` |
| CartPage.ShipTo | src/pages/Cart.jsx:58-64 | street, city, state and country are copied, and `zipCode` is the address's `pincode` |
| CartPage.RequestMatchesDisplayedSubtotals | src/pages/Cart.jsx:53-57 | each request item charges exactly the subtotal `offerPrice * quantity` that its cart row displays (line 215) |
| CartPage.HandleCheckout | src/pages/Cart.jsx:83-100 | an empty cart is rejected first, then a missing address; otherwise the lines and the address are forwarded unchanged |
| CartPage.CheckoutToast | src/pages/Cart.jsx:83-100 | no toast exactly when the page moves to the checkout; the empty-cart and the missing-address messages for the two rejections |
| CartPage.QuantityOptions | src/pages/Cart.jsx:198-208 | the dropdown has max(9, current) entries, the i-th being i + 1 |
| CartPage.QuantityOptionsOfferCurrent | src/pages/Cart.jsx:198-208 | the dropdown always offers 1 to 9 and the row's current quantity |
| CartPage.CartView.constructor | src/pages/Cart.jsx:21-25 | the page starts with no lines, no selected address, cash on delivery and the busy flag down |
| CartPage.CartView.OnAddressesChanged | src/pages/Cart.jsx:114-118 | a non-empty address list selects its first address; an empty one changes nothing |
| CartPage.CartView.ChoosePayment | src/pages/Cart.jsx:298 | the chosen payment option is stored |
| CartPage.CartView.BeginPlaceOrder | src/pages/Cart.jsx:41-64 | a click while busy does nothing; without an address nothing is sent, an error is shown and the flag is never raised; a request (built from the lines and the address) is sent exactly for cash on delivery with a user, and the flag then stays raised |
| CartPage.CartView.FinishPlaceOrder | src/pages/Cart.jsx:66-81 | the cart is emptied and the page moves to `/my-orders` exactly on a successful answer; otherwise the server message or the default is shown; the busy flag is lowered on every path |
| CheckoutPage.AsItems | src/pages/CheckoutPage.jsx:41-46 | each kept line becomes an item with its product and the cart's quantity |
| CheckoutPage.OfferTotalAtMostListTotal | src/pages/CheckoutPage.jsx:48-53 | when no offer exceeds its list price, the `offerPrice \|\| price` total is at most the list-price total |
| CheckoutPage.OfferTotalWithoutOffers | src/pages/CheckoutPage.jsx:48-53 | an offer price that is missing or 0 falls back to the list price, so without truthy offers the two totals agree |
| CheckoutPage.FallbackLoadedIff | src/pages/CheckoutPage.jsx:36-63 | the fallback yields a cart exactly when the context cart and the catalog are non-empty and some id resolves, and that cart is the joined items with their `offerPrice \|\| price` total; when it fails, the message is "Your cart is empty" if both were non-empty and the caller's message otherwise |
| CheckoutPage.LoadCart | src/pages/CheckoutPage.jsx:17-103 | without a user the error is the log-in message; the backend cart is used whenever the answer is successful and non-empty; otherwise a cart is shown exactly when the context cart and the catalog are non-empty and some id resolves, and it is the fallback cart; an answer that is not used fails with "Your cart is empty"; a request error fails with "Your cart is empty" when both were non-empty, else with the server message or "Failed to fetch cart" |
| CheckoutPage.CheckoutView.constructor | src/pages/CheckoutPage.jsx:13-16 | no items, a total of 0, loading, and no error |
| CheckoutPage.CheckoutView.FetchCart | src/pages/CheckoutPage.jsx:17-103 | the page state follows `LoadCart`: a loaded cart replaces items and total, a failure sets the error and keeps them, and `loading` is false on every path |
| CheckoutForm.WithField | src/components/CheckoutForm.jsx:17-23 | the named card field takes the value, and every other field keeps its own |
| CheckoutForm.PaymentItems | src/components/CheckoutForm.jsx:36-39 | same length and quantities as the cart; a product is sent by its id, and a bare id as it is |
| CheckoutForm.BuildPayment | src/components/CheckoutForm.jsx:33-42 | the amount is the page's total, the user and card number are passed through, and the shipping address is the user's default address exactly when there is one (else `{}`) |
| CheckoutForm.PaymentForm.constructor | src/components/CheckoutForm.jsx:8-15 | four empty card fields, not loading, no error |
| CheckoutForm.PaymentForm.HandleChange | src/components/CheckoutForm.jsx:17-23 | only the named field of the form changes |
| CheckoutForm.PaymentForm.BeginSubmit | src/components/CheckoutForm.jsx:24-42 | a submission while loading does nothing; otherwise `loading` rises, the error is cleared and the payment request is built |
| CheckoutForm.PaymentForm.FinishSubmit | src/components/CheckoutForm.jsx:44-66 | a paid order empties the cart and navigates with its id and number; a decline or an error sets the server message or "Payment failed. Please try again." and keeps the cart; `loading` drops on every path |
| Orders.TranslateStatus | src/pages/Seller/OrdersList.jsx:309-318 | the five known statuses, compared without regard to case, map to their French labels; any other status is returned unchanged |
| Orders.TranslateStatusCaseInsensitive | src/pages/Seller/OrdersList.jsx:309-318 | two known statuses get the same label exactly when they are equal up to case |
| Orders.TranslateKnownIsFrench | src/pages/Seller/Dashboard.jsx:65-74 | in the dashboard's identical copy, as in the order list's, a known status always gets a French label, never its own name |
| OrdersList.FilterByTab | src/pages/Seller/OrdersList.jsx:288-291 | "all" keeps every order; another tab keeps exactly the orders whose status equals it ignoring case; order is preserved |
| OrdersList.FilterByTabCount | src/pages/Seller/OrdersList.jsx:288-291 | a status tab keeps every copy of a matching order and no copy of any other |
| OrdersList.KnownStatusInOneTab | src/pages/Seller/OrdersList.jsx:331-338 | an order with a known status appears under exactly one of the five status tabs |
| OrdersList.SetStatus | src/pages/Seller/OrdersList.jsx:248-255 | the orders with the id take the new status (all their other fields kept); every other order is unchanged; the length is unchanged |
| OrdersList.SetStatusIdempotent | src/pages/Seller/OrdersList.jsx:248-255 | repeating the same status change changes nothing more |
| OrdersList.SetStatusMovesToTab | src/pages/Seller/OrdersList.jsx:248-255 | after a change the order appears under the tab of its new status |
| OrdersList.RemoveOrder | src/pages/Seller/OrdersList.jsx:267-270 | the orders with the id are gone, all others stay in order, and the list shrinks by exactly the number of orders with that id |
| OrdersList.RemoveAbsentOrder | src/pages/Seller/OrdersList.jsx:267-270 | deleting an id that no order carries keeps the list |
| OrdersList.Toggle | src/pages/Seller/OrdersList.jsx:182-187 | the flag of the given id flips (a never-toggled id counts as collapsed) and every other id keeps its flag |
| OrdersList.ToggleTwice | src/pages/Seller/OrdersList.jsx:182-187 | toggling the same id twice shows every order as before |
| OrdersList.StatusColor | src/pages/Seller/OrdersList.jsx:189-201 | the gray class exactly for statuses outside the five known ones (ignoring case) |
| OrdersList.StatusColorDistinguishesKnown | src/pages/Seller/OrdersList.jsx:189-201 | known statuses share a colour exactly when they are equal up to case |
| OrdersList.OrdersView.constructor | src/pages/Seller/OrdersList.jsx:175-180 | no orders, loading, the "all" tab, no expanded order and no pending deletion |
| OrdersList.OrdersView.FetchOrders | src/pages/Seller/OrdersList.jsx:221-240 | a successful answer replaces the list, anything else keeps it; `loading` ends false |
| OrdersList.OrdersView.SelectTab | src/pages/Seller/OrdersList.jsx:341 | the clicked tab becomes the active one |
| OrdersList.OrdersView.FilteredOrders | src/pages/Seller/OrdersList.jsx:288-291 | the shown orders are the active tab's `FilterByTab` of the list, hence a subsequence of it |
| OrdersList.OrdersView.ToggleOrderDetails | src/pages/Seller/OrdersList.jsx:182-187 | the expand flags become `Toggle` of the old ones |
| OrdersList.OrdersView.HandleStatusChange | src/pages/Seller/OrdersList.jsx:242-260 | the list becomes `SetStatus` of the old list exactly on a successful answer, for any new status (no transition is checked), and is otherwise unchanged |
| OrdersList.OrdersView.BeginDelete | src/pages/Seller/OrdersList.jsx:262-264 | the order being deleted is recorded |
| OrdersList.OrdersView.FinishDelete | src/pages/Seller/OrdersList.jsx:262-279 | a confirmed deletion removes the orders with the handler's own id, even when another deletion was recorded since; the record is cleared on every path |
| Dashboard.StatsFrom | src/pages/Seller/Dashboard.jsx:21-28 | each statistic is the server's value, or 0 when missing; the recent orders are the server's list, or none when missing |
| Dashboard.DashboardView.constructor | src/pages/Seller/Dashboard.jsx:7-13 | all statistics 0, no recent orders, loading |
| Dashboard.DashboardView.FetchDashboardData | src/pages/Seller/Dashboard.jsx:16-43 | a successful answer installs its statistics; an unsuccessful one changes nothing; an error (or a success without statistics) resets all to 0 and no orders; `isLoading` ends false |
| Dashboard.RevenueAppend | src/pages/Seller/Dashboard.jsx:116-117 | the revenue of two lists end to end is the sum of their revenues |
| Dashboard.RevenueBounds | src/pages/Seller/Dashboard.jsx:116-117 | with non-negative amounts the revenue is non-negative and at least each order's amount |
| Dashboard.RevenueOfUnpricedOrders | src/pages/Seller/Dashboard.jsx:116-117 | orders whose amount is missing or 0 add nothing |
| Dashboard.DisplayedRevenueIgnoresServerTotal | src/pages/Seller/Dashboard.jsx:116-117 | the revenue figure depends only on the recent orders, never on the server's `totalRevenue` |
| Dashboard.BadgeClass | src/pages/Seller/Dashboard.jsx:174-184 | red exactly for statuses other than delivered, pending, processing and shipped (exact comparison) |
| Dashboard.BadgeClassesDistinct | src/pages/Seller/Dashboard.jsx:174-184 | the four non-red statuses get four different classes |
| Dashboard.BadgeCaseMismatch | src/pages/Seller/Dashboard.jsx:174-184 | "Delivered" is labelled "Livré" but its badge is red |
| MyOrders.FilterByTab | src/pages/MyOrders.jsx:58-61 | "all" keeps every order; another tab keeps the orders whose status equals it exactly, and no other; order is preserved |
| MyOrders.FilterByTabCount | src/pages/MyOrders.jsx:58-61 | a status tab keeps every copy of a matching order and no copy of any other, so with order preservation its list is fixed exactly |
| MyOrders.FilterByTabIsCaseSensitive | src/pages/MyOrders.jsx:58-61 | an order "Delivered" is not under the "delivered" tab |
| MyOrders.StatusColor | src/pages/MyOrders.jsx:45-56 | green for delivered, blue for processing, red for cancelled (exact matches), and gray exactly for any other status |
| MyOrders.StatusColorDistinguishesNamed | src/pages/MyOrders.jsx:45-56 | a named status shares its colour with no other status |
| MyOrders.Capitalize | src/pages/MyOrders.jsx:160-161 | same length, first character upper-cased, the rest unchanged |
| MyOrders.CapitalizeIdempotent | src/pages/MyOrders.jsx:160-161 | capitalising a label again changes nothing |
| MyOrders.TabCaptions | src/pages/MyOrders.jsx:99-110 | the tab captions read All, Processing, Delivered, Cancelled |
| MyOrders.View | src/pages/MyOrders.jsx:63-135 | the login view exactly without a user, whatever the orders; the spinner for a user while loading; once loaded, "No Orders Found" exactly when the tab's list is empty, else one card per order of the tab |
| MyOrders.MockOrdersByTab | src/pages/MyOrders.jsx:17-42 | the sample orders show one card under "processing" and none under "cancelled" |
| ProductDetails.SelectProduct | src/pages/ProductDetails.jsx:30-41 | the page shows the first product with the route id, and the loading text exactly when none has it |
| ProductDetails.Related | src/pages/ProductDetails.jsx:44-49 | a prefix of the catalog's products of the selected product's category (the selected product excluded), of length min(their number, 6): the first six, in catalog order |
| ProductDetails.Others | src/pages/ProductDetails.jsx:51-56 | a prefix of the catalog's products of other categories (the selected product excluded), of length min(their number, 4): the first four, in catalog order |
| ProductDetails.RelatedOthersDisjoint | src/pages/ProductDetails.jsx:44-56 | the two lists share no product and neither holds the selected product |
| ProductDetails.PriceBlockOf | src/pages/ProductDetails.jsx:139-154 | the struck list price and the savings appear exactly for a truthy offer; shown price plus savings equal the list price; savings are non-negative when the offer does not exceed the price |
| ProductDetails.ShownPriceIsCheckoutPrice | src/pages/ProductDetails.jsx:139 | the shown price is the `offerPrice \|\| price` the checkout charges |
| ProductDetails.CartQuantity | src/pages/ProductDetails.jsx:176 | the shown quantity is a stored quantity for the product, or 0 when it has no cart entry |
| ProductDetails.MinusDisabledIffZero | src/pages/ProductDetails.jsx:171-176 | "-" is disabled exactly when the shown quantity is 0, in particular without a cart entry |
| ProductDetails.CartQuantityOfEntry | src/pages/ProductDetails.jsx:176 | with distinct cart keys the shown quantity is the one stored for the product |
| AllProducts.Search | src/pages/AllProducts.jsx:10-20 | an empty query keeps the catalog; any query keeps exactly the products whose lower-cased name contains the lower-cased query, in catalog order |
| AllProducts.SearchIsFilter | src/pages/AllProducts.jsx:10-20 | the empty-query branch agrees with the filter |
| AllProducts.SearchIgnoresCase | src/pages/AllProducts.jsx:13-15 | queries equal up to case find the same products |
| AllProducts.Rendered | src/pages/AllProducts.jsx:31-32 | the grid holds the in-stock matches and nothing else, in catalog order |
| AllProducts.RenderedCount | src/pages/AllProducts.jsx:31-32 | the grid keeps every copy of an in-stock match and no copy of anything else, so with catalog order it is fixed exactly |
| ProductCategory.MatchCategory | src/pages/ProductCategory.jsx:11-13 | the first category whose lower-cased path equals the route parameter, or none exactly when no path matches |
| ProductCategory.CategoryKeyIsParam | src/pages/ProductCategory.jsx:15-19 | the comparison key `path.toLowerCase() \|\| category` is always the route parameter |
| ProductCategory.Kept | src/pages/ProductCategory.jsx:15-19 | the products whose lower-cased category equals the parameter and no other, in catalog order, as many as the catalog holds, so exactly that filter |
| ProductCategory.UpperCaseParamKeepsNothing | src/pages/ProductCategory.jsx:11-19 | a parameter with an upper-case letter keeps no product |
| ProductCategory.GridOf | src/pages/ProductCategory.jsx:33-43 | the "No products found" message exactly when no product is kept; otherwise the in-stock filter of the kept products, in catalog order |
| ProductCategory.OutOfStockShowsEmptyGrid | src/pages/ProductCategory.jsx:33-43 | matches that are all out of stock give an empty grid, not the message |
| ProductCategory.Title | src/pages/ProductCategory.jsx:25-27 | the heading has no lower-case letter and lower-cases to the matched category's text lower-cased (or the parameter's), so it is that text upper-cased letter by letter |
| BestSeller.BestSellers | src/components/BestSeller.jsx:12-15 | at most 5, all in stock, a prefix of the in-stock list, as many as possible, in catalog order |
| BestSeller.FewInStockAllShown | src/components/BestSeller.jsx:12-14 | with at most 5 products in stock, all of them are shown |
| BestSeller.BestSellersSkipOnlyWhenFull | src/components/BestSeller.jsx:12-15 | an in-stock product is left out only when 5 are shown |
| Categories.ShownCategories | src/components/Categories.jsx:31-40 | exactly the categories whose text is one of the six names, in list order |
| Categories.ShownCategoriesCount | src/components/Categories.jsx:31-40 | a whitelisted category is shown as often as listed, any other never |
| Categories.NavigationPath | src/components/Categories.jsx:66 | `/products/` followed by the lower-cased path |
| Categories.NavigationReachesCategory | src/components/Categories.jsx:66 | the category page reached from a tile matches a category with the same path up to case (the tile's own when paths differ beyond case) and keeps that category's products |
| ProductsList.ApplyInput | src/pages/Seller/ProductsList.jsx:190-263 | the edited input's field takes the value, and every other field keeps its own |
| ProductsList.FormOf | src/pages/Seller/ProductsList.jsx:77-86 | name, price, category and stock come from the product; the offer price is blank exactly when the product's is missing or 0 |
| ProductsList.UpdateRequestOf | src/pages/Seller/ProductsList.jsx:91-101 | the request carries the edited id, name, category and stock flag; each entered price or offer price is sent as entered; a blank price is `NaN` and a blank offer `null` |
| ProductsList.EditRoundTrip | src/pages/Seller/ProductsList.jsx:77-101 | saving an untouched edit sends the product's own values, except that an offer of 0 is sent as `null` |
| ProductsList.ProductsListView.constructor | src/pages/Seller/ProductsList.jsx:7-15 | no row edited, loading, and a blank form with stock set |
| ProductsList.ProductsListView.FinishInitialLoad | src/pages/Seller/ProductsList.jsx:17-28 | the table shows once the first load is over |
| ProductsList.ProductsListView.HandleEdit | src/pages/Seller/ProductsList.jsx:77-86 | the product's row is edited, with the form filled from it |
| ProductsList.ProductsListView.HandleEditCancel | src/pages/Seller/ProductsList.jsx:117-126 | no row is edited and the form is blank with stock set |
| ProductsList.ProductsListView.HandleFormChange | src/pages/Seller/ProductsList.jsx:190-263 | the form becomes `ApplyInput` of the old form |
| ProductsList.ProductsListView.HandleEditSubmit | src/pages/Seller/ProductsList.jsx:88-115 | the request is built from the edit; the edit ends and the catalog reloads exactly on success; `loading` ends false |
| ProductsList.ProductsListView.HandleStockToggle | src/pages/Seller/ProductsList.jsx:30-51 | the request asks for the opposite of the current stock flag; reload exactly on success; `loading` ends false |
| ProductsList.ProductsListView.HandleDelete | src/pages/Seller/ProductsList.jsx:53-75 | without confirmation nothing is sent and nothing changes; with it the id is sent, reload exactly on success, `loading` ends false |
| AddProduct.ApplyEvent | src/pages/Seller/AddProduct.jsx:15-21 | the checkbox sets `stock` to its checked state, a text input its own field; every other field keeps its own |
| AddProduct.EventsCommute | src/pages/Seller/AddProduct.jsx:15-21 | changes to two different inputs give the same draft in either order |
| AddProduct.AddProductForm.constructor | src/pages/Seller/AddProduct.jsx:4-13 | the form starts blank with stock set, no image and no preview |
| AddProduct.AddProductForm.HandleInputChange | src/pages/Seller/AddProduct.jsx:15-21 | the draft becomes `ApplyEvent` of the old draft |
| AddProduct.AddProductForm.HandleImageChange | src/pages/Seller/AddProduct.jsx:23-27 | without a file nothing changes; with one only the image changes |
| AddProduct.AddProductForm.OnPreviewLoaded | src/pages/Seller/AddProduct.jsx:28-30 | the preview shows what the file reader produced |
| AddProduct.AddProductForm.HandleSubmit | src/pages/Seller/AddProduct.jsx:35-49 | the draft and the preview are back to their initial state |
| AddAddress.WithField | src/pages/AddAddress.jsx:15-17 | the named field takes the value, and every other field keeps its own |
| AddAddress.NewAddress | src/pages/AddAddress.jsx:21-24 | the form's four fields under the new id, with no postal code |
| AddAddress.AddressPage.constructor | src/pages/AddAddress.jsx:6-13 | an empty form and the context's address list as it stands |
| AddAddress.AddressPage.HandleChange | src/pages/AddAddress.jsx:15-17 | the form becomes `WithField` of the old form |
| AddAddress.AddressPage.HandleSubmit | src/pages/AddAddress.jsx:19-28 | the list grows by one, its head is the new address and its tail the old list (a missing list counts as empty); the page moves to `/cart` |
| SellerLogin.Check | src/components/Seller/SellerLogin.jsx:20-36 | a missing field exactly when either is empty (checked first); accepted exactly for the demonstration e-mail and password |
| SellerLogin.LoginForm.OnSubmit | src/components/Seller/SellerLogin.jsx:20-36 | a missing field or wrong credentials set their message and leave `isSeller`; the demonstration credentials clear the error, set `isSeller` and open `/seller` |
| SellerLogin.LoginForm.constructor | src/components/Seller/SellerLogin.jsx:8-12 | empty e-mail, password and error, and the context's seller flag |
| SellerLogin.LoginForm.SetEmail | src/components/Seller/SellerLogin.jsx:60 | the e-mail input is stored |
| SellerLogin.LoginForm.SetPassword | src/components/Seller/SellerLogin.jsx:71 | the password input is stored |
| SellerLogin.RedirectFor | src/components/Seller/SellerLogin.jsx:14-18 | a seller is always sent to `/seller`, and anyone else nowhere |

Some members carry no `ensures` of their own and so have no row. They are
stated through the members above:

- `CartPage.CartView.OrderButtonDisabled` (`src/pages/Cart.jsx:337`);
- `SellerLogin.LoginForm.FormShown` (`src/components/Seller/SellerLogin.jsx:39`);
- `Dashboard.Revenue`, `CheckoutPage.OfferTotal` and `CheckoutPage.Fallback`;
- `Storefront.Join` (`src/pages/Cart.jsx:27-39`), stated by `JoinSpec`,
  `JoinAppend` and `JoinEmptyIff`;
- `ProductCategory.CategoryKey` (`src/pages/ProductCategory.jsx:15-19`),
  stated by `CategoryKeyIsParam`;
- `ProductDetails.MinusDisabled`.

## Left out

- Network calls, toasts, console logging, timers and animations are left
  out. Each backend answer is a parameter, and a navigation appears only
  as a returned path. Most toasts are not modelled: only the cart page's
  order toasts are returned.
- The 30-second poll of the seller's order list is not modelled. Each poll
  is one more `FetchOrders`.
- The simulated delays are not modelled (payment processing, and the mock
  order load in the order history).
- `fetchProducts` after a product update, stock toggle or delete is
  returned as a `reload` flag. The catalog it reloads is context state,
  not part of these pages.
- `FileReader` is left out. The preview it produces is the parameter of
  `OnPreviewLoaded`.
- `Date.now()` and `window.confirm` are parameters.
- The browser's own input constraints are not modelled: `required` on the
  address, login, product and card inputs, `type="email"` on the login
  e-mail, and the card fields' `maxLength`. Every handler takes any input,
  so the model over-approximates what the rendered forms let through (for
  example `SellerLogin.Check`'s missing-field branch, a blank address, or a
  blank product price).
- The other async handlers run in one step: `handleStockToggle`,
  `handleDelete` and `handleEditSubmit` of the product table, `fetchCart`,
  `fetchOrders` and `fetchDashboardData`. Their `loading = true` while the
  request is in flight is not observable in the model; only the state
  after the reply is.
- `parseFloat`, `toFixed`, `toLocaleString` and the cart page's 2% tax
  line are floating-point display formatting and are not modelled. A
  price input of the product table is blank or holds an integer amount.
- `addToCart`, `removeFromCart`, `updateCartItem`, `getCartCount` and
  `getCartAmount` are called by the pages, but no shown file defines
  them. They are not modelled.
- Case mapping is ASCII only. `toLowerCase`/`toUpperCase` on accented
  letters (for example "É") is not modelled.
- JavaScript enumerates integer-like object keys before other keys. The
  cart's key order is taken as given.
- Status lookups go through `statusMap[...]`/`colorMap[...]`, which also
  find inherited object properties such as `constructor`. The model
  treats every status outside the five as unknown.
- The seller order list offers every status from every status, and the
  model follows that. No order of transitions (pending, processing,
  shipped, delivered) is enforced.
- Data that would make the JavaScript throw is not modelled: a missing
  status string, a `null` product in a checkout item, or a missing
  `cart` in the cart answer. The exceptions modelled are the
  missing-user case of `placeOrder` and the missing `stats` object of the
  dashboard answer.
- The order-details modal (`selectedOrder`) of the seller order list is
  never opened by any handler in the file, so it is not modelled.
- `getStatusOptionColor` in the seller order list is defined but never
  used, so it is not modelled.
- `CartPage.CartView.BeginPlaceOrder`: with online payment selected, the
  COD handler only raises and lowers the flag. The model returns no
  request and leaves the flag down, without the intermediate raise.

=== FILE: add_address.dfy ===
/** The "Add New Address" form: per-field updates and the submission that
    puts the new address at the head of the customer's list. */
module AddAddress {
  import opened Common
  import opened Storefront

  datatype AddressForm = AddressForm(street: string, city: string, state: string, country: string)

  const EmptyForm: AddressForm := AddressForm("", "", "", "")

  const CartPath: string := "/cart"

  /** The four inputs, by their `name` attribute. */
  datatype AddressField = Street | City | State | Country

  function FieldOf(form: AddressForm, f: AddressField): string {
    match f
    case Street => form.street
    case City => form.city
    case State => form.state
    case Country => form.country
  }

  /** `{ ...form, [name]: value }`: the named field takes the value, every
      other field keeps its own. */
  function WithField(form: AddressForm, f: AddressField, value: string): (r: AddressForm)
    ensures FieldOf(r, f) == value
    ensures forall g :: g != f ==> FieldOf(r, g) == FieldOf(form, g)
  {
    match f
    case Street => form.(street := value)
    case City => form.(city := value)
    case State => form.(state := value)
    case Country => form.(country := value)
  }

  /** `{ ...form, _id: stamp }`: the form's fields under a new id, with no
      postal code. */
  function NewAddress(form: AddressForm, stamp: string): (a: Address)
    ensures a.id == stamp && a.pincode.None?
    ensures forall f :: FieldOf(form, f) == FieldOf(AddressForm(a.street, a.city, a.state, a.country), f)
  {
    Address(stamp, form.street, form.city, form.state, form.country, None)
  }

  /** The page's state and the shared address list it writes; a list that
      is not there yet counts as empty. */
  class AddressPage {
    var form: AddressForm
    var addresses: Option<seq<Address>>

    constructor (initial: Option<seq<Address>>)
      ensures form == EmptyForm && addresses == initial
    {
      form := EmptyForm;
      addresses := initial;
    }

    /** The addresses as the page reads them: `addresses = []` by default. */
    function Current(): seq<Address>
      reads this
    {
      if addresses.Some? then addresses.value else []
    }

    method HandleChange(f: AddressField, value: string)
      modifies this`form
      ensures form == WithField(old(form), f, value)
    {
      form := WithField(form, f, value);
    }

    /** `handleSubmit`: the new address, stamped with the clock's reading,
        goes in front of the existing ones, which follow unchanged; then the
        page moves to the cart. */
    method HandleSubmit(stamp: string) returns (navigateTo: string)
      modifies this`addresses
      ensures addresses.Some?
      ensures |Current()| == |old(Current())| + 1
      ensures Current()[0] == NewAddress(form, stamp)
      ensures Current()[1..] == old(Current())
      ensures navigateTo == CartPath
    {
      var existing := Current();
      addresses := Some([NewAddress(form, stamp)] + existing);
      navigateTo := CartPath;
    }
  }
}

=== FILE: add_product.dfy ===
/** The seller's "Add New Product" form: per-input updates of the draft, the
    image pick, and the reset after submission. */
module AddProduct {
  import opened Common

  /** The draft product. `image` names the picked file; text inputs hold
      their text as typed. */
  datatype Draft = Draft(
    name: string,
    price: string,
    description: string,
    category: string,
    stock: bool,
    image: Option<string>)

  const InitialDraft: Draft := Draft("", "", "", "", true, None)

  /** The text inputs of the form, by their `name` attribute. */
  datatype TextField = Name | Price | Description | Category

  /** A change event: a text input's value, or the `stock` checkbox's
      `checked` state. */
  datatype InputEvent = TextInput(field: TextField, value: string) | StockCheckbox(checked: bool)

  function TextOf(d: Draft, f: TextField): string {
    match f
    case Name => d.name
    case Price => d.price
    case Description => d.description
    case Category => d.category
  }

  /** `handleInputChange`: the checkbox sets `stock` to its checked state,
      a text input sets its own field to its value, and every other field
      keeps its own. */
  function ApplyEvent(d: Draft, e: InputEvent): (r: Draft)
    ensures e.StockCheckbox? ==> r.stock == e.checked && forall f :: TextOf(r, f) == TextOf(d, f)
    ensures e.TextInput? ==> TextOf(r, e.field) == e.value && r.stock == d.stock &&
                             forall f :: f != e.field ==> TextOf(r, f) == TextOf(d, f)
    ensures r.image == d.image
  {
    match e
    case StockCheckbox(checked) => d.(stock := checked)
    case TextInput(field, value) =>
      match field
      case Name => d.(name := value)
      case Price => d.(price := value)
      case Description => d.(description := value)
      case Category => d.(category := value)
  }

  /** Changes of two different inputs do not interfere: applying them in
      either order gives the same draft. */
  lemma EventsCommute(d: Draft, e1: InputEvent, e2: InputEvent)
    requires e1.StockCheckbox? ==> e2.TextInput?
    requires e1.TextInput? ==> e2.StockCheckbox? || e2.field != e1.field
    ensures ApplyEvent(ApplyEvent(d, e1), e2) == ApplyEvent(ApplyEvent(d, e2), e1)
  {
  }

  /** The state of the form. */
  class AddProductForm {
    var product: Draft
    var previewImage: Option<string>

    constructor ()
      ensures product == InitialDraft && previewImage == None
    {
      product := InitialDraft;
      previewImage := None;
    }

    method HandleInputChange(e: InputEvent)
      modifies this`product
      ensures product == ApplyEvent(old(product), e)
    {
      product := ApplyEvent(product, e);
    }

    /** `handleImageChange`: without a file nothing changes; with one it
        becomes the draft's image and the preview is read from it. */
    method HandleImageChange(file: Option<string>)
      modifies this`product
      ensures file.None? ==> product == old(product)
      ensures file.Some? ==> product == old(product).(image := file)
    {
      if file.Some? {
        product := product.(image := file);
      }
    }

    /** The file reader's completion: the preview shows the data it read. */
    method OnPreviewLoaded(dataUrl: string)
      modifies this`previewImage
      ensures previewImage == Some(dataUrl)
    {
      previewImage := Some(dataUrl);
    }

    /** `handleSubmit`: the form is back in its initial state. */
    method HandleSubmit()
      modifies this`product, this`previewImage
      ensures product == InitialDraft && previewImage == None
    {
      product := InitialDraft;
      previewImage := None;
    }
  }
}

=== FILE: all_products.dfy ===
/** The "All products" page: the name search and the in-stock grid. */
module AllProducts {
  import opened Common
  import opened Storefront

  /** Whether a product's lower-cased name contains an already lower-cased
      needle. */
  function NameContains(needle: string): Product -> bool {
    (p: Product) => Contains(Lower(p.name), needle)
  }

  /** The page's `filteredProducts`: the whole catalog for an empty query,
      otherwise the products whose name contains the query, both sides
      lower-cased, in catalog order. */
  function Search(products: seq<Product>, query: string): (r: seq<Product>)
    ensures |query| == 0 ==> r == products
    ensures forall p :: p in r <==> p in products && Contains(Lower(p.name), Lower(query))
    ensures IsSubsequence(r, products)
  {
    if |query| > 0 then
      FilterIsSubsequence(products, NameContains(Lower(query)));
      Filter(products, NameContains(Lower(query)))
    else
      SubsequenceReflexive(products);
      assert forall p :: p in products ==> Contains(Lower(p.name), Lower(query)) by {
        forall p | p in products ensures Contains(Lower(p.name), Lower(query)) {
          ContainsEmpty(Lower(p.name));
        }
      }
      products
  }

  /** The empty-query branch is not a special case: it agrees with the
      filter, since every name contains the empty string. */
  lemma {:induction false} SearchIsFilter(products: seq<Product>, query: string)
    ensures Search(products, query) == Filter(products, NameContains(Lower(query)))
  {
    if |query| == 0 {
      forall p | p in products ensures NameContains(Lower(query))(p) {
        ContainsEmpty(Lower(p.name));
      }
      FilterKeepsAll(products, NameContains(Lower(query)));
    }
  }

  /** Queries that differ only in ASCII case find the same products. */
  lemma SearchIgnoresCase(products: seq<Product>, q1: string, q2: string)
    requires Lower(q1) == Lower(q2)
    ensures Search(products, q1) == Search(products, q2)
  {
    SearchIsFilter(products, q1);
    SearchIsFilter(products, q2);
  }

  /** The grid: the in-stock products of the search, which keep catalog
      order. */
  function Rendered(products: seq<Product>, query: string): (r: seq<Product>)
    ensures forall p :: p in r <==> p in products && p.inStock && Contains(Lower(p.name), Lower(query))
    ensures IsSubsequence(r, products)
  {
    var found := Search(products, query);
    SubsequenceTransitive(InStockOnly(found), found, products);
    InStockOnly(found)
  }

  /** The grid keeps every copy of a product that is in stock and matches the
      query, and no copy of any other: with catalog order this fixes it
      exactly. */
  lemma RenderedCount(products: seq<Product>, query: string, p: Product)
    ensures multiset(Rendered(products, query))[p] ==
              if p.inStock && Contains(Lower(p.name), Lower(query)) then multiset(products)[p] else 0
  {
    SearchIsFilter(products, query);
    FilterCount(products, NameContains(Lower(query)), p);
    FilterCount(Search(products, query), InStock, p);
  }
}

=== FILE: best_seller.dfy ===
/** The "Best Sellers" strip on the home page. */
module BestSeller {
  import opened Common
  import opened Storefront

  const MaxShown: nat := 5

  /** The first five in-stock products, in catalog order; all of them when
      fewer than five are in stock. */
  function BestSellers(products: seq<Product>): (r: seq<Product>)
    ensures |r| <= MaxShown
    ensures forall p :: p in r ==> p in products && p.inStock
    ensures |r| == if |InStockOnly(products)| <= MaxShown then |InStockOnly(products)| else MaxShown
    ensures r == InStockOnly(products)[..|r|]
    ensures IsSubsequence(r, products)
  {
    var stocked := InStockOnly(products);
    PrefixIsSubsequence(stocked, |Take(stocked, MaxShown)|);
    SubsequenceTransitive(Take(stocked, MaxShown), stocked, products);
    Take(stocked, MaxShown)
  }

  /** Every in-stock product appears when at most five are in stock. */
  lemma FewInStockAllShown(products: seq<Product>)
    requires CountWhere(products, InStock) <= MaxShown
    ensures forall p :: p in products && p.inStock ==> p in BestSellers(products)
  {
  }

  /** An in-stock product is left out only when five earlier products (in
      the in-stock order) fill the strip. */
  lemma BestSellersSkipOnlyWhenFull(products: seq<Product>, p: Product)
    requires p in products && p.inStock && p !in BestSellers(products)
    ensures |BestSellers(products)| == MaxShown
  {
  }
}

=== FILE: cart_page.dfy ===
/** The cart page: the cart joined with the catalog, the cash-on-delivery
    order request, what happens to the cart and the busy flag when the
    request comes back, and the hand-off to the online checkout. */
module CartPage {
  import opened Common
  import opened Storefront

  datatype PaymentOption = COD | Online

  /** A notification shown to the customer. */
  datatype Toast = NoToast | SuccessToast(text: string) | ErrorToast(text: string)

  const NoAddressMessage: string := "Veuillez sélectionner une adresse de livraison"
  const EmptyCartMessage: string := "Votre panier est vide !"
  const OrderFailedMessage: string := "Échec de la commande"
  const OrderPlacedMessage: string := "Commande passée avec succès !"

  /** One item of the cash-on-delivery request. `price` is the product's raw
      `offerPrice`: there is no fallback to `price`. */
  datatype OrderItem = OrderItem(product: string, quantity: nat, price: Option<int>)

  datatype ShippingAddress = ShippingAddress(
    street: string,
    city: string,
    state: string,
    country: string,
    zipCode: Option<string>)

  /** The body of `POST /api/order/cod`. */
  datatype CodOrder = CodOrder(userId: string, items: seq<OrderItem>, address: ShippingAddress)

  /** `cartArray.map((item) => ({ product, quantity, price: item.offerPrice }))`. */
  function OrderItems(lines: seq<CartLine>): (items: seq<OrderItem>)
    ensures |items| == |lines|
    ensures forall i :: 0 <= i < |lines| ==>
              items[i].product == lines[i].product.id &&
              items[i].quantity == lines[i].quantity &&
              items[i].price == lines[i].product.offerPrice
  {
    if lines == [] then []
    else [OrderItem(lines[0].product.id, lines[0].quantity, lines[0].product.offerPrice)] + OrderItems(lines[1..])
  }

  /** The request address: four fields copied, `zipCode` taken from `pincode`. */
  function ShipTo(a: Address): (s: ShippingAddress)
    ensures s.street == a.street && s.city == a.city && s.state == a.state && s.country == a.country
    ensures s.zipCode == a.pincode
  {
    ShippingAddress(a.street, a.city, a.state, a.country, a.pincode)
  }

  /** The cash-on-delivery request: the user, one item per cart line, and the
      selected address. */
  function CodOrderRequest(userId: string, lines: seq<CartLine>, address: Address): (req: CodOrder)
    ensures req.userId == userId
    ensures |req.items| == |lines|
    ensures forall i :: 0 <= i < |lines| ==>
              req.items[i] == OrderItem(lines[i].product.id, lines[i].quantity, lines[i].product.offerPrice)
    ensures req.address.zipCode == address.pincode
    ensures req.address.street == address.street && req.address.city == address.city
    ensures req.address.state == address.state && req.address.country == address.country
  {
    CodOrder(userId, OrderItems(lines), ShipTo(address))
  }

  /** The subtotal a cart row displays, `offerPrice * quantity`; without an
      offer price the product is `NaN`, modelled as `None`. */
  function LineSubtotal(line: CartLine): Option<int> {
    match line.product.offerPrice
    case Some(offer) => Some(offer * line.quantity)
    case None => None
  }

  /** What an order item charges: its unit price times its quantity. */
  function ItemCharge(item: OrderItem): Option<int> {
    match item.price
    case Some(unit) => Some(unit * item.quantity)
    case None => None
  }

  /** Every request item charges exactly what its cart row displayed. */
  lemma {:induction false} RequestMatchesDisplayedSubtotals(userId: string, lines: seq<CartLine>, address: Address)
    ensures |CodOrderRequest(userId, lines, address).items| == |lines|
    ensures forall i :: 0 <= i < |lines| ==>
              ItemCharge(CodOrderRequest(userId, lines, address).items[i]) == LineSubtotal(lines[i])
  {
    var items := OrderItems(lines);
    forall i | 0 <= i < |lines|
      ensures ItemCharge(items[i]) == LineSubtotal(lines[i])
    {
      assert items[i].price == lines[i].product.offerPrice;
    }
  }

  /** The outcome of `handleCheckout`. */
  datatype CheckoutStep =
    | EmptyCartRejected
    | AddressRejected
    | GoToCheckout(items: seq<CartLine>, address: Address)

  /** `handleCheckout`: an empty cart is rejected first, then a missing address;
      otherwise the lines and the address go to `/checkout` unchanged. */
  function HandleCheckout(cartArray: seq<CartLine>, selected: Option<Address>): (step: CheckoutStep)
    ensures step.EmptyCartRejected? <==> cartArray == []
    ensures step.AddressRejected? <==> cartArray != [] && selected.None?
    ensures step.GoToCheckout? ==> step.items == cartArray && selected == Some(step.address)
  {
    if |cartArray| == 0 then EmptyCartRejected
    else if selected.None? then AddressRejected
    else GoToCheckout(cartArray, selected.value)
  }

  /** The toast `handleCheckout` shows: an error for each rejection, and none
      when the page moves on to the checkout. */
  function CheckoutToast(step: CheckoutStep): (t: Toast)
    ensures t.NoToast? <==> step.GoToCheckout?
    ensures step.EmptyCartRejected? ==> t == ErrorToast(EmptyCartMessage)
    ensures step.AddressRejected? ==> t == ErrorToast(NoAddressMessage)
  {
    match step
    case EmptyCartRejected => ErrorToast(EmptyCartMessage)
    case AddressRejected => ErrorToast(NoAddressMessage)
    case GoToCheckout(_, _) => NoToast
  }

  /** The values of a row's quantity dropdown:
      `Array(q > 9 ? q : 9)` mapped to `index + 1`. */
  function QuantityOptions(current: nat): (options: seq<nat>)
    ensures |options| == if current > 9 then current else 9
    ensures forall i :: 0 <= i < |options| ==> options[i] == i + 1
  {
    seq(if current > 9 then current else 9, i => i + 1)
  }

  /** The dropdown always offers the row's current quantity, and 1 to 9. */
  lemma QuantityOptionsOfferCurrent(current: nat, v: nat)
    requires 1 <= v && (v <= 9 || v == current)
    ensures v in QuantityOptions(current)
  {
    var options := QuantityOptions(current);
    assert options[v - 1] == v;
  }

  /** The state of the cart page. `cartItems` is the shared context cart. */
  class CartView {
    var cartItems: CartEntries
    var cartArray: seq<CartLine>
    var selectedAddress: Option<Address>
    var paymentOption: PaymentOption
    var isPlacingOrder: bool

    constructor (cart: CartEntries)
      ensures cartItems == cart && cartArray == [] && selectedAddress == None
      ensures paymentOption == COD && !isPlacingOrder
    {
      cartItems := cart;
      cartArray := [];
      selectedAddress := None;
      paymentOption := COD;
      isPlacingOrder := false;
    }

    /** `getCart`: walks the cart keys and pushes one line per key found in
        the catalog. */
    method GetCart(products: seq<Product>)
      modifies this`cartArray
      ensures cartArray == Join(products, cartItems)
    {
      var tempArray: seq<CartLine> := [];
      var i := 0;
      while i < |cartItems|
        invariant 0 <= i <= |cartItems|
        invariant tempArray == Join(products, cartItems[..i])
      {
        var key := cartItems[i].0;
        var product := FindById(products, key);
        if product.Some? {
          tempArray := tempArray + [CartLine(product.value, cartItems[i].1)];
        }
        JoinAppend(products, cartItems[..i], [cartItems[i]]);
        assert cartItems[..i + 1] == cartItems[..i] + [cartItems[i]];
        i := i + 1;
      }
      assert cartItems[..i] == cartItems;
      cartArray := tempArray;
    }

    /** The effect that runs when the address list changes: a non-empty list
        selects its first address. */
    method OnAddressesChanged(addresses: seq<Address>)
      modifies this`selectedAddress
      ensures selectedAddress == if |addresses| > 0 then Some(addresses[0]) else old(selectedAddress)
    {
      if |addresses| > 0 {
        selectedAddress := Some(addresses[0]);
      }
    }

    method ChoosePayment(option: PaymentOption)
      modifies this`paymentOption
      ensures paymentOption == option
    {
      paymentOption := option;
    }

    /** `placeOrder` up to the request. The order button is disabled while
        `isPlacingOrder` holds, so a click then does nothing. Without an
        address nothing is sent and the flag is never raised. A missing user
        makes `user._id` throw, which the handler catches. When a request is
        returned the flag stays raised until `FinishPlaceOrder`. */
    method BeginPlaceOrder(user: Option<string>) returns (request: Option<CodOrder>, toast: Toast)
      modifies this`isPlacingOrder
      ensures old(isPlacingOrder) ==> request.None? && toast == NoToast && isPlacingOrder
      ensures !old(isPlacingOrder) && selectedAddress.None? ==>
                request.None? && toast == ErrorToast(NoAddressMessage) && !isPlacingOrder
      ensures request.Some? <==>
                !old(isPlacingOrder) && selectedAddress.Some? && paymentOption == COD && user.Some?
      ensures request.Some? ==> request.value == CodOrderRequest(user.value, cartArray, selectedAddress.value)
      ensures isPlacingOrder <==> old(isPlacingOrder) || request.Some?
    {
      request, toast := None, NoToast;
      if isPlacingOrder {
        return;
      }
      if selectedAddress.None? {
        toast := ErrorToast(NoAddressMessage);
        return;
      }
      isPlacingOrder := true;
      if paymentOption == COD {
        if user.None? {
          // `user._id` throws; the catch shows the default message and the
          // `finally` lowers the flag.
          toast := ErrorToast(OrderFailedMessage);
          isPlacingOrder := false;
        } else {
          request := Some(CodOrderRequest(user.value, cartArray, selectedAddress.value));
        }
      } else {
        isPlacingOrder := false;
      }
    }

    /** `placeOrder` after the request: the cart is emptied only on a
        successful answer, and the flag is lowered on every path. */
    method FinishPlaceOrder(reply: Reply) returns (toast: Toast, navigateTo: Option<string>)
      requires isPlacingOrder
      modifies this`cartItems, this`isPlacingOrder
      ensures !isPlacingOrder
      ensures cartItems == if Succeeded(reply) then [] else old(cartItems)
      ensures navigateTo == if Succeeded(reply) then Some("/my-orders") else None
      ensures toast == if Succeeded(reply) then SuccessToast(OrderPlacedMessage)
                       else ErrorToast(OrDefault(reply.message, OrderFailedMessage))
    {
      navigateTo := None;
      if reply.Answered? && reply.success {
        toast := SuccessToast(OrderPlacedMessage);
        cartItems := [];
        navigateTo := Some("/my-orders");
      } else {
        toast := ErrorToast(OrDefault(reply.message, OrderFailedMessage));
      }
      isPlacingOrder := false;
    }

    /** `disabled={isPlacingOrder}` on the order button. */
    predicate OrderButtonDisabled()
      reads this
    {
      isPlacingOrder
    }
  }
}

=== FILE: categories.dfy ===
/** The category tiles on the home page: the whitelist of categories shown,
    and where a tile leads. */
module Categories {
  import opened Common
  import opened Storefront
  import opened ProductCategory

  /** The six category names the home page shows. */
  const Whitelist: seq<string> := [
    "Légumes Bio",
    "Fruits Frais",
    "Boissons Fraîches",
    "Produits Laitiers",
    "Boulangerie & Pains",
    "Céréales & Grains"
  ]

  const ProductsPrefix: string := "/products/"

  function Whitelisted(c: Category): bool {
    c.text in Whitelist
  }

  /** `filteredCategories`: the categories whose text is one of the six
      names, in list order. */
  function ShownCategories(categories: seq<Category>): (r: seq<Category>)
    ensures forall c :: c in r <==> c in categories && c.text in Whitelist
    ensures IsSubsequence(r, categories)
    ensures |r| <= |categories|
  {
    FilterIsSubsequence(categories, Whitelisted);
    Filter(categories, Whitelisted)
  }

  /** Every whitelisted category is shown as often as it is listed, and no
      other category is shown. */
  lemma ShownCategoriesCount(categories: seq<Category>, c: Category)
    ensures multiset(ShownCategories(categories))[c] ==
              if c.text in Whitelist then multiset(categories)[c] else 0
  {
    FilterCount(categories, Whitelisted, c);
  }

  /** `/products/${category.path.toLowerCase()}`. */
  function NavigationPath(c: Category): (path: string)
    ensures |path| == |ProductsPrefix| + |c.path|
    ensures path[..|ProductsPrefix|] == ProductsPrefix
    ensures path[|ProductsPrefix|..] == Lower(c.path)
  {
    ProductsPrefix + Lower(c.path)
  }

  /** A tile leads to a category page that recognises the category: the
      route parameter taken from the path matches a listed category with the
      same path up to case (this one, when no two paths differ only in
      case), and the page keeps the products of that category. */
  lemma NavigationReachesCategory(categories: seq<Category>, products: seq<Product>, c: Category)
    requires c in categories
    ensures var param := NavigationPath(c)[|ProductsPrefix|..];
            MatchCategory(categories, param).Some? &&
            Lower(MatchCategory(categories, param).value.path) == Lower(c.path) &&
            (forall p :: p in Kept(categories, products, param) <==> p in products && Lower(p.category) == Lower(c.path))
    ensures (forall d :: d in categories && Lower(d.path) == Lower(c.path) ==> d == c) ==>
              MatchCategory(categories, NavigationPath(c)[|ProductsPrefix|..]) == Some(c)
  {
    var param := NavigationPath(c)[|ProductsPrefix|..];
    LowerIdempotent(c.path);
    assert Lower(c.path) == param;
  }
}

=== FILE: checkout_form.dfy ===
/** The card-payment form of the checkout: per-field updates of the card
    data, the fake-payment request built from the checkout items, and the
    loading, error and cart state around it. */
module CheckoutForm {
  import opened Common
  import opened Storefront
  import opened CheckoutPage

  const PaymentFailedMessage: string := "Payment failed. Please try again."

  datatype CardForm = CardForm(cardNumber: string, cardHolder: string, expiryDate: string, cvv: string)

  /** The `name` attributes of the four inputs. */
  datatype CardField = CardNumber | CardHolder | ExpiryDate | Cvv

  function FieldOf(form: CardForm, name: CardField): string {
    match name
    case CardNumber => form.cardNumber
    case CardHolder => form.cardHolder
    case ExpiryDate => form.expiryDate
    case Cvv => form.cvv
  }

  /** `{ ...prev, [name]: value }`: the named field takes the value and every
      other field keeps its own. */
  function WithField(form: CardForm, name: CardField, value: string): (r: CardForm)
    ensures FieldOf(r, name) == value
    ensures forall other :: other != name ==> FieldOf(r, other) == FieldOf(form, other)
  {
    match name
    case CardNumber => form.(cardNumber := value)
    case CardHolder => form.(cardHolder := value)
    case ExpiryDate => form.(expiryDate := value)
    case Cvv => form.(cvv := value)
  }

  datatype User = User(id: string, defaultAddress: Option<Address>)

  /** What `item.product._id || item.product` sends: the id, or (when the
      populated record's id is empty) the record itself. */
  datatype PayloadProduct = RefId(id: string) | RefObject(product: Product)

  datatype PaymentItem = PaymentItem(product: PayloadProduct, quantity: nat)

  /** `user?.defaultAddress || {}`. */
  datatype ShippingTo = ToAddress(address: Address) | EmptyObject

  /** The body of `POST /api/payment/fake-payment`. */
  datatype PaymentRequest = PaymentRequest(
    cardNumber: string,
    user: Option<User>,
    cartItems: seq<PaymentItem>,
    amount: int,
    shippingAddress: ShippingTo)

  function ProductRef(p: ItemProduct): PayloadProduct {
    match p
    case Populated(product) => if product.id != "" then RefId(product.id) else RefObject(product)
    case ProductId(id) => RefId(id)
  }

  /** `cartItems.map(...)`: same length and same quantities; a populated
      product is sent by its id (the whole record when that id is empty), a
      bare id as it is. */
  function PaymentItems(items: seq<CheckoutItem>): (r: seq<PaymentItem>)
    ensures |r| == |items|
    ensures forall i :: 0 <= i < |items| ==> r[i].quantity == items[i].quantity
    ensures forall i :: 0 <= i < |items| && items[i].product.ProductId? ==>
              r[i].product == RefId(items[i].product.id)
    ensures forall i :: 0 <= i < |items| && items[i].product.Populated? && items[i].product.product.id != "" ==>
              r[i].product == RefId(items[i].product.product.id)
    ensures forall i :: 0 <= i < |items| && items[i].product.Populated? && items[i].product.product.id == "" ==>
              r[i].product == RefObject(items[i].product.product)
  {
    if items == [] then []
    else [PaymentItem(ProductRef(items[0].product), items[0].quantity)] + PaymentItems(items[1..])
  }

  function ShippingOf(user: Option<User>): ShippingTo {
    if user.Some? && user.value.defaultAddress.Some? then ToAddress(user.value.defaultAddress.value)
    else EmptyObject
  }

  /** The payment request: the amount is the page's total, the shipping
      address the user's default address or `{}`. */
  function BuildPayment(form: CardForm, user: Option<User>, items: seq<CheckoutItem>, total: int): (req: PaymentRequest)
    ensures req.amount == total && req.user == user && req.cardNumber == form.cardNumber
    ensures req.cartItems == PaymentItems(items) && |req.cartItems| == |items|
    ensures req.shippingAddress.ToAddress? <==> user.Some? && user.value.defaultAddress.Some?
    ensures req.shippingAddress.ToAddress? ==> user.value.defaultAddress == Some(req.shippingAddress.address)
  {
    PaymentRequest(form.cardNumber, user, PaymentItems(items), total, ShippingOf(user))
  }

  /** The reply to the payment request. */
  datatype PaymentReply =
    | Paid(orderId: string, orderNumber: string)
    | Declined(message: Option<string>)
    | PaymentThrown(message: Option<string>)

  /** The navigation to the success page, with the order it carries. */
  datatype OrderSuccess = OrderSuccess(orderId: string, orderNumber: string)

  class PaymentForm {
    var formData: CardForm
    var loading: bool
    var error: string
    /** The shared context cart. */
    var contextCart: CartEntries

    constructor (cart: CartEntries)
      ensures formData == CardForm("", "", "", "") && !loading && error == "" && contextCart == cart
    {
      formData := CardForm("", "", "", "");
      loading := false;
      error := "";
      contextCart := cart;
    }

    /** `handleChange`: only the named field changes. */
    method HandleChange(name: CardField, value: string)
      modifies this`formData
      ensures formData == WithField(old(formData), name, value)
    {
      formData := WithField(formData, name, value);
    }

    /** `handleSubmit` up to the request. The submit button is disabled while
        `loading`, so a submission then does nothing. Otherwise the loading
        flag rises, the error is cleared and the request is built. */
    method BeginSubmit(user: Option<User>, items: seq<CheckoutItem>, total: int) returns (request: Option<PaymentRequest>)
      modifies this`loading, this`error
      ensures loading
      ensures old(loading) ==> request.None? && error == old(error)
      ensures !old(loading) ==> error == "" && request == Some(BuildPayment(formData, user, items, total))
    {
      if loading {
        request := None;
        return;
      }
      loading := true;
      error := "";
      request := Some(BuildPayment(formData, user, items, total));
    }

    /** `handleSubmit` after the request: a paid order empties the cart and
        navigates with the order's id and number; a decline or an error sets
        the message and keeps the cart; `loading` drops on every path. */
    method FinishSubmit(reply: PaymentReply) returns (navigateTo: Option<OrderSuccess>)
      requires loading
      modifies this`loading, this`error, this`contextCart
      ensures !loading
      ensures contextCart == if reply.Paid? then [] else old(contextCart)
      ensures reply.Paid? ==> navigateTo == Some(OrderSuccess(reply.orderId, reply.orderNumber)) && error == old(error)
      ensures !reply.Paid? ==> navigateTo.None? && error == OrDefault(reply.message, PaymentFailedMessage)
    {
      navigateTo := None;
      match reply {
        case Paid(orderId, orderNumber) =>
          contextCart := [];
          navigateTo := Some(OrderSuccess(orderId, orderNumber));
        case Declined(message) =>
          error := OrDefault(message, PaymentFailedMessage);
        case PaymentThrown(message) =>
          error := OrDefault(message, PaymentFailedMessage);
      }
      loading := false;
    }
  }
}

=== FILE: checkout_page.dfy ===
/** The checkout page: which cart it shows (the backend's, or the context
    cart joined with the catalog as a fallback), the fallback total, and the
    error it reports otherwise. */
module CheckoutPage {
  import opened Common
  import opened Storefront

  const LoginMessage: string := "Please log in to view your cart."
  const EmptyCartMessage: string := "Your cart is empty"
  const FetchFailedMessage: string := "Failed to fetch cart"

  /** What a checkout item names as its product: a populated product record,
      or a bare product id as the backend may send it. */
  datatype ItemProduct = Populated(product: Product) | ProductId(id: string)

  datatype CheckoutItem = CheckoutItem(product: ItemProduct, quantity: nat)

  /** The reply to `GET /api/cart`: an answer with `success`, `cart.items` and
      `cart.total`, or a thrown request error with the server's message. */
  datatype CartReply =
    | CartAnswer(success: bool, items: seq<CheckoutItem>, total: int)
    | CartThrown(message: Option<string>)

  /** What the page ends up showing: a cart and its total, or an error. */
  datatype CartLoad = Loaded(items: seq<CheckoutItem>, total: int) | Failed(message: string)

  function AsItems(lines: seq<CartLine>): (items: seq<CheckoutItem>)
    ensures |items| == |lines|
    ensures forall i :: 0 <= i < |lines| ==>
              items[i] == CheckoutItem(Populated(lines[i].product), lines[i].quantity)
  {
    if lines == [] then [] else [CheckoutItem(Populated(lines[0].product), lines[0].quantity)] + AsItems(lines[1..])
  }

  /** The fallback items: the context-cart entries whose id resolves in the
      catalog, each with the cart's quantity. */
  function FallbackItems(contextCart: CartEntries, products: seq<Product>): seq<CheckoutItem> {
    AsItems(Join(products, contextCart))
  }

  /** `items.reduce((acc, item) => acc + (offerPrice || price) * quantity, 0)`. */
  function OfferTotal(lines: seq<CartLine>): int {
    if lines == [] then 0
    else EffectivePrice(lines[0].product) * lines[0].quantity + OfferTotal(lines[1..])
  }

  /** The same sum at list prices. */
  function ListTotal(lines: seq<CartLine>): int {
    if lines == [] then 0 else lines[0].product.price * lines[0].quantity + ListTotal(lines[1..])
  }

  lemma EffectiveLineAtMostList(p: Product, q: nat)
    requires OfferAtMostPrice(p)
    ensures EffectivePrice(p) * q <= p.price * q
  {
    var d := p.price - EffectivePrice(p);
    assert d >= 0;
    assert p.price * q == EffectivePrice(p) * q + d * q;
  }

  /** When every offer is at most its list price, the fallback total never
      exceeds the list-price total. */
  lemma {:induction false} OfferTotalAtMostListTotal(lines: seq<CartLine>)
    requires forall l :: l in lines ==> OfferAtMostPrice(l.product)
    ensures OfferTotal(lines) <= ListTotal(lines)
  {
    if lines != [] {
      EffectiveLineAtMostList(lines[0].product, lines[0].quantity);
      OfferTotalAtMostListTotal(lines[1..]);
    }
  }

  /** An offer price that is absent or 0 falls back to the list price: with no
      truthy offer in the cart the fallback total is the list-price total. */
  lemma {:induction false} OfferTotalWithoutOffers(lines: seq<CartLine>)
    requires forall l :: l in lines ==> !HasOffer(l.product)
    ensures OfferTotal(lines) == ListTotal(lines)
  {
    if lines != [] {
      OfferTotalWithoutOffers(lines[1..]);
    }
  }

  /** The context-cart fallback: used when the context cart and the catalog
      are both non-empty and at least one id resolves; "Your cart is empty"
      when they are non-empty but nothing resolves; otherwise the given
      error message. */
  function Fallback(contextCart: CartEntries, products: seq<Product>, otherwise: string): CartLoad {
    if |contextCart| > 0 && |products| > 0 then
      var lines := Join(products, contextCart);
      if |lines| > 0 then Loaded(AsItems(lines), OfferTotal(lines)) else Failed(EmptyCartMessage)
    else
      Failed(otherwise)
  }

  /** The fallback yields a cart exactly when the context cart and catalog are
      non-empty and some cart id resolves; the cart it yields is the joined
      lines and their `offerPrice || price` total. */
  lemma FallbackLoadedIff(contextCart: CartEntries, products: seq<Product>, otherwise: string)
    ensures Fallback(contextCart, products, otherwise).Loaded? <==>
              |contextCart| > 0 && |products| > 0 &&
              exists e :: e in contextCart && FindById(products, e.0).Some?
    ensures Fallback(contextCart, products, otherwise).Loaded? ==>
              Fallback(contextCart, products, otherwise) ==
                Loaded(FallbackItems(contextCart, products), OfferTotal(Join(products, contextCart)))
    ensures Fallback(contextCart, products, otherwise).Failed? ==>
              Fallback(contextCart, products, otherwise).message ==
                if |contextCart| > 0 && |products| > 0 then EmptyCartMessage else otherwise
  {
    JoinEmptyIff(products, contextCart);
  }

  /** `fetchCart` as a function of the user, the context cart, the catalog and
      the backend reply. */
  function LoadCart(loggedIn: bool, contextCart: CartEntries, products: seq<Product>, reply: CartReply): (r: CartLoad)
    ensures !loggedIn ==> r == Failed(LoginMessage)
    ensures loggedIn && reply.CartAnswer? && reply.success && |reply.items| > 0 ==>
              r == Loaded(reply.items, reply.total)
    ensures loggedIn && !(reply.CartAnswer? && reply.success && |reply.items| > 0) ==>
              (r.Loaded? <==> |contextCart| > 0 && |products| > 0 &&
                              exists e :: e in contextCart && FindById(products, e.0).Some?)
    ensures loggedIn && !(reply.CartAnswer? && reply.success && |reply.items| > 0) && r.Loaded? ==>
              r == Loaded(FallbackItems(contextCart, products), OfferTotal(Join(products, contextCart)))
    ensures loggedIn && reply.CartAnswer? && r.Failed? ==> r.message == EmptyCartMessage
    ensures loggedIn && reply.CartThrown? && r.Failed? ==>
              r.message == if |contextCart| > 0 && |products| > 0 then EmptyCartMessage
                           else OrDefault(reply.message, FetchFailedMessage)
  {
    if !loggedIn then Failed(LoginMessage)
    else match reply
      case CartAnswer(success, items, total) =>
        if success && |items| > 0 then Loaded(items, total)
        else
          FallbackLoadedIff(contextCart, products, EmptyCartMessage);
          Fallback(contextCart, products, EmptyCartMessage)
      case CartThrown(message) =>
        FallbackLoadedIff(contextCart, products, OrDefault(message, FetchFailedMessage));
        Fallback(contextCart, products, OrDefault(message, FetchFailedMessage))
  }

  /** The page state `fetchCart` writes. */
  class CheckoutView {
    var cartItems: seq<CheckoutItem>
    var totalAmount: int
    var loading: bool
    var error: Option<string>

    constructor ()
      ensures cartItems == [] && totalAmount == 0 && loading && error == None
    {
      cartItems := [];
      totalAmount := 0;
      loading := true;
      error := None;
    }

    /** The effect and `fetchCart`: a loaded cart replaces the items and the
        total and leaves the error as it was; a failure sets the error and
        leaves the items; `loading` is false on every path. */
    method FetchCart(loggedIn: bool, contextCart: CartEntries, products: seq<Product>, reply: CartReply)
      modifies this
      ensures !loading
      ensures LoadCart(loggedIn, contextCart, products, reply).Loaded? ==>
                cartItems == LoadCart(loggedIn, contextCart, products, reply).items &&
                totalAmount == LoadCart(loggedIn, contextCart, products, reply).total &&
                error == old(error)
      ensures LoadCart(loggedIn, contextCart, products, reply).Failed? ==>
                error == Some(LoadCart(loggedIn, contextCart, products, reply).message) &&
                cartItems == old(cartItems) && totalAmount == old(totalAmount)
    {
      loading := true;
      if !loggedIn {
        error := Some(LoginMessage);
        loading := false;
        return;
      }
      var otherwise := EmptyCartMessage;
      if reply.CartAnswer? && reply.success && |reply.items| > 0 {
        cartItems := reply.items;
        totalAmount := reply.total;
      } else {
        if reply.CartThrown? {
          otherwise := OrDefault(reply.message, FetchFailedMessage);
        }
        if |contextCart| > 0 && |products| > 0 {
          var lines := Join(products, contextCart);
          var total := OfferTotal(lines);
          if |lines| > 0 {
            cartItems := AsItems(lines);
            totalAmount := total;
          } else {
            error := Some(EmptyCartMessage);
          }
        } else {
          error := Some(otherwise);
        }
      }
      loading := false;
    }
  }
}

=== FILE: common.dfy ===
/** Small building blocks shared by every page model: an Option type, the
    JavaScript string and array operations the pages use (`toLowerCase`,
    `toUpperCase`, `includes`, `filter`, `slice(0, n)`, `find`), and the
    subsequence relation used to say "order is preserved". */
module Common {

  datatype Option<T> = None | Some(value: T)

  /** JavaScript `msg || fallback` where `msg` may be missing: a missing or
      empty message falls through to the fallback. */
  function OrDefault(msg: Option<string>, fallback: string): (r: string)
    ensures r == fallback || (msg == Some(r) && r != "")
    ensures fallback != "" ==> r != ""
  {
    if msg.Some? && msg.value != "" then msg.value else fallback
  }

  // ---------------------------------------------------------------------
  // Strings (ASCII case mapping only)

  function LowerChar(c: char): char {
    if 'A' <= c <= 'Z' then (c as int + 32) as char else c
  }

  function UpperChar(c: char): char {
    if 'a' <= c <= 'z' then (c as int - 32) as char else c
  }

  predicate IsUpperAscii(c: char) {
    'A' <= c <= 'Z'
  }

  /** `s.toLowerCase()` restricted to ASCII letters. */
  function Lower(s: string): (r: string)
    ensures |r| == |s|
    ensures forall i :: 0 <= i < |s| ==> !IsUpperAscii(r[i])
  {
    seq(|s|, i requires 0 <= i < |s| => LowerChar(s[i]))
  }

  /** Lower-casing twice changes nothing more. */
  lemma LowerIdempotent(s: string)
    ensures Lower(Lower(s)) == Lower(s)
  {
  }

  predicate IsLowerAscii(c: char) {
    'a' <= c <= 'z'
  }

  /** `s.toUpperCase()` restricted to ASCII letters. */
  function Upper(s: string): (r: string)
    ensures |r| == |s|
    ensures forall i :: 0 <= i < |s| ==> !IsLowerAscii(r[i])
  {
    seq(|s|, i requires 0 <= i < |s| => UpperChar(s[i]))
  }

  /** Upper-casing keeps a string's letters: lower-casing the result gives
      the lower-cased original. */
  lemma LowerOfUpper(s: string)
    ensures Lower(Upper(s)) == Lower(s)
  {
  }

  /** `text.includes(pattern)`: `pattern` occurs in `text` at some offset. */
  predicate Contains(text: string, pattern: string)
    decreases |text|
  {
    |pattern| <= |text| &&
    (text[..|pattern|] == pattern || (|text| > 0 && Contains(text[1..], pattern)))
  }

  /** The index-based reading of `Contains`. */
  ghost predicate OccursAt(text: string, pattern: string, k: int) {
    0 <= k && k + |pattern| <= |text| && text[k..k + |pattern|] == pattern
  }

  lemma {:induction false} ContainsIffOccurs(text: string, pattern: string)
    ensures Contains(text, pattern) <==> exists k :: OccursAt(text, pattern, k)
    decreases |text|
  {
    if Contains(text, pattern) {
      if text[..|pattern|] == pattern {
        assert OccursAt(text, pattern, 0);
      } else {
        ContainsIffOccurs(text[1..], pattern);
        var k :| OccursAt(text[1..], pattern, k);
        assert text[k + 1..k + 1 + |pattern|] == text[1..][k..k + |pattern|];
        assert OccursAt(text, pattern, k + 1);
      }
    } else {
      forall k | OccursAt(text, pattern, k) ensures false {
        if k != 0 {
          ContainsIffOccurs(text[1..], pattern);
          assert text[1..][k - 1..k - 1 + |pattern|] == text[k..k + |pattern|];
          assert OccursAt(text[1..], pattern, k - 1);
        }
      }
    }
  }

  /** Every string includes the empty string. */
  lemma ContainsEmpty(text: string)
    ensures Contains(text, "")
  {
  }

  // ---------------------------------------------------------------------
  // Sequences

  /** `b` lists all elements of `a`, in the same relative order, possibly with
      others in between. */
  predicate IsSubsequence<T(==)>(a: seq<T>, b: seq<T>)
    decreases |b|
  {
    if a == [] then true
    else if b == [] then false
    else (a[0] == b[0] && IsSubsequence(a[1..], b[1..])) || IsSubsequence(a, b[1..])
  }

  lemma {:induction false} SubsequenceTransitive<T>(a: seq<T>, b: seq<T>, c: seq<T>)
    requires IsSubsequence(a, b) && IsSubsequence(b, c)
    ensures IsSubsequence(a, c)
    decreases |c|
  {
    if a == [] {
    } else if c == [] {
    } else if b[0] == c[0] && IsSubsequence(b[1..], c[1..]) {
      if a[0] == b[0] && IsSubsequence(a[1..], b[1..]) {
        SubsequenceTransitive(a[1..], b[1..], c[1..]);
      } else {
        SubsequenceTransitive(a, b[1..], c[1..]);
      }
    } else {
      SubsequenceTransitive(a, b, c[1..]);
    }
  }

  lemma {:induction false} PrefixIsSubsequence<T>(s: seq<T>, k: nat)
    requires k <= |s|
    ensures IsSubsequence(s[..k], s)
  {
    if k > 0 {
      PrefixIsSubsequence(s[1..], k - 1);
      assert s[..k][1..] == s[1..][..k - 1];
    }
  }

  lemma {:induction false} SubsequenceMembers<T>(a: seq<T>, b: seq<T>)
    requires IsSubsequence(a, b)
    ensures forall x :: x in a ==> x in b
    decreases |b|
  {
    if a != [] {
      if a[0] == b[0] && IsSubsequence(a[1..], b[1..]) {
        SubsequenceMembers(a[1..], b[1..]);
        assert forall x :: x in a ==> x == a[0] || x in a[1..];
      } else {
        SubsequenceMembers(a, b[1..]);
      }
    }
  }

  /** `s.filter(p)`. */
  function Filter<T(!new)>(s: seq<T>, p: T -> bool): (r: seq<T>)
    ensures |r| <= |s|
    ensures forall x :: x in r <==> x in s && p(x)
  {
    if s == [] then []
    else if p(s[0]) then [s[0]] + Filter(s[1..], p)
    else Filter(s[1..], p)
  }

  lemma {:induction false} FilterIsSubsequence<T(!new)>(s: seq<T>, p: T -> bool)
    ensures IsSubsequence(Filter(s, p), s)
  {
    if s != [] {
      FilterIsSubsequence(s[1..], p);
      var r := Filter(s, p);
      if p(s[0]) {
        assert r[0] == s[0] && r[1..] == Filter(s[1..], p);
      } else if r != [] {
        assert r == Filter(s[1..], p);
      }
    }
  }

  /** `filter` keeps every copy of a matching element and no copy of any
      other element: together with `FilterIsSubsequence` this determines the
      result exactly. */
  lemma {:induction false} FilterCount<T(!new)>(s: seq<T>, p: T -> bool, x: T)
    ensures multiset(Filter(s, p))[x] == if p(x) then multiset(s)[x] else 0
  {
    if s != [] {
      FilterCount(s[1..], p, x);
      assert s == [s[0]] + s[1..];
      assert multiset(s) == multiset([s[0]]) + multiset(s[1..]);
      if p(s[0]) {
        assert multiset(Filter(s, p)) == multiset([s[0]]) + multiset(Filter(s[1..], p));
      }
    }
  }

  lemma {:induction false} FilterAppend<T(!new)>(a: seq<T>, b: seq<T>, p: T -> bool)
    ensures Filter(a + b, p) == Filter(a, p) + Filter(b, p)
  {
    if a == [] {
      assert a + b == b;
    } else {
      FilterAppend(a[1..], b, p);
      assert (a + b)[1..] == a[1..] + b;
    }
  }

  lemma {:induction false} FilterKeepsAll<T(!new)>(s: seq<T>, p: T -> bool)
    requires forall x :: x in s ==> p(x)
    ensures Filter(s, p) == s
  {
    if s != [] {
      assert forall x :: x in s[1..] ==> x in s;
      FilterKeepsAll(s[1..], p);
    }
  }

  /** Number of elements of `s` that satisfy `p`. */
  function CountWhere<T>(s: seq<T>, p: T -> bool): (n: nat)
    ensures n <= |s|
  {
    if s == [] then 0 else (if p(s[0]) then 1 else 0) + CountWhere(s[1..], p)
  }

  lemma {:induction false} FilterLength<T(!new)>(s: seq<T>, p: T -> bool)
    ensures |Filter(s, p)| == CountWhere(s, p)
  {
    if s != [] {
      FilterLength(s[1..], p);
    }
  }

  /** Every element satisfies exactly one of `p` and its negation `q`, so the
      two counts add up to the length. */
  lemma {:induction false} CountWhereComplement<T>(s: seq<T>, p: T -> bool, q: T -> bool)
    requires forall x :: q(x) == !p(x)
    ensures CountWhere(s, p) + CountWhere(s, q) == |s|
  {
    if s != [] {
      CountWhereComplement(s[1..], p, q);
    }
  }

  lemma SubsequenceReflexive<T>(s: seq<T>)
    ensures IsSubsequence(s, s)
  {
    PrefixIsSubsequence(s, |s|);
    assert s[..|s|] == s;
  }

  /** `s.slice(0, n)`. */
  function Take<T>(s: seq<T>, n: nat): (r: seq<T>)
    ensures |r| <= n && |r| <= |s|
    ensures r == s[..|r|]
    ensures |s| <= n ==> r == s
    ensures n <= |s| ==> |r| == n
  {
    if |s| <= n then s else s[..n]
  }

  /** Index of the first element satisfying `p`, as `findIndex` computes it. */
  function FindFirst<T>(s: seq<T>, p: T -> bool): (r: Option<nat>)
    ensures r.Some? ==> r.value < |s| && p(s[r.value])
    ensures r.Some? ==> forall j :: 0 <= j < r.value ==> !p(s[j])
    ensures r.None? <==> forall j :: 0 <= j < |s| ==> !p(s[j])
  {
    if s == [] then None
    else if p(s[0]) then Some(0)
    else match FindFirst(s[1..], p)
      case None => None
      case Some(k) => Some(k + 1)
  }

  /** `s.find(p)`: the first element satisfying `p`, or nothing. */
  function Find<T(!new)>(s: seq<T>, p: T -> bool): (r: Option<T>)
    ensures r.Some? ==> r.value in s && p(r.value)
    ensures r.None? <==> forall x :: x in s ==> !p(x)
  {
    match FindFirst(s, p)
    case None => None
    case Some(k) => Some(s[k])
  }
}

=== FILE: dashboard.dfy ===
/** The seller dashboard: the statistics record and how a reply fills it,
    the revenue figure summed over the recent orders, and the status badge
    of each recent order. */
module Dashboard {
  import opened Common
  import opened Orders

  /** The statistics the page holds. */
  datatype Stats = Stats(totalOrders: int, totalProducts: int, totalRevenue: int, recentOrders: seq<Order>)

  /** The initial record, and the one a failed request resets to. */
  const ZeroStats: Stats := Stats(0, 0, 0, [])

  /** `data.stats` as the backend sends it: any field may be missing. */
  datatype ServerStats = ServerStats(
    totalOrders: Option<int>,
    totalProducts: Option<int>,
    totalRevenue: Option<int>,
    recentOrders: Option<seq<Order>>)

  /** The reply to `GET /api/seller/dashboard`: an answer with `success` and
      possibly no `stats` object, or a thrown request error. */
  datatype DashboardReply = DashboardAnswer(success: bool, stats: Option<ServerStats>) | DashboardThrown

  /** `value || 0` on a number that may be missing. */
  function OrZero(v: Option<int>): int {
    if v.Some? && v.value != 0 then v.value else 0
  }

  /** The record a successful answer installs: each number as sent, and 0 in
      its place when it is missing (a sent 0 stays 0); the recent orders as
      sent (an array is truthy even when empty), and none when missing. */
  function StatsFrom(s: ServerStats): (r: Stats)
    ensures r.totalOrders == (if s.totalOrders.Some? then s.totalOrders.value else 0)
    ensures r.totalProducts == (if s.totalProducts.Some? then s.totalProducts.value else 0)
    ensures r.totalRevenue == (if s.totalRevenue.Some? then s.totalRevenue.value else 0)
    ensures r.recentOrders == (if s.recentOrders.Some? then s.recentOrders.value else [])
  {
    Stats(
      OrZero(s.totalOrders),
      OrZero(s.totalProducts),
      OrZero(s.totalRevenue),
      if s.recentOrders.Some? then s.recentOrders.value else [])
  }

  /** `order.totalAmount || 0`. */
  function Amount(o: Order): int {
    OrZero(o.totalAmount)
  }

  /** The "Revenu total" figure: the sum of the recent orders' amounts, a
      missing amount counting as 0. The server's `totalRevenue` plays no
      part in it. */
  function Revenue(orders: seq<Order>): int {
    if orders == [] then 0 else Amount(orders[0]) + Revenue(orders[1..])
  }

  /** The revenue of two lists laid end to end is the sum of their revenues. */
  lemma {:induction false} RevenueAppend(a: seq<Order>, b: seq<Order>)
    ensures Revenue(a + b) == Revenue(a) + Revenue(b)
  {
    if a == [] {
      assert a + b == b;
    } else {
      assert (a + b)[0] == a[0] && (a + b)[1..] == a[1..] + b;
      RevenueAppend(a[1..], b);
    }
  }

  /** With no negative amounts the revenue is not negative, and it counts
      every order's amount. */
  lemma {:induction false} RevenueBounds(orders: seq<Order>)
    requires forall o :: o in orders ==> Amount(o) >= 0
    ensures Revenue(orders) >= 0
    ensures forall o :: o in orders ==> Amount(o) <= Revenue(orders)
  {
    if orders != [] {
      assert forall o :: o in orders[1..] ==> o in orders;
      RevenueBounds(orders[1..]);
      assert forall o :: o in orders ==> o == orders[0] || o in orders[1..];
    }
  }

  /** Orders without an amount add nothing: a list whose amounts are all
      missing or 0 has revenue 0. */
  lemma {:induction false} RevenueOfUnpricedOrders(orders: seq<Order>)
    requires forall o :: o in orders ==> o.totalAmount.None? || o.totalAmount == Some(0)
    ensures Revenue(orders) == 0
  {
    if orders != [] {
      assert forall o :: o in orders[1..] ==> o in orders;
      RevenueOfUnpricedOrders(orders[1..]);
    }
  }

  /** The displayed revenue depends only on the recent orders. */
  lemma DisplayedRevenueIgnoresServerTotal(s: ServerStats, t: ServerStats)
    requires s.recentOrders == t.recentOrders
    ensures Revenue(StatsFrom(s).recentOrders) == Revenue(StatsFrom(t).recentOrders)
  {
  }

  const RedBadge: string := "bg-red-100 text-red-800"

  /** The badge class chain: exact, case-sensitive comparisons with four
      statuses; everything else (cancelled, or a known status in another
      case) is red. */
  function BadgeClass(status: string): (cls: string)
    ensures cls == RedBadge <==> status !in ["delivered", "pending", "processing", "shipped"]
  {
    if status == "delivered" then "bg-green-100 text-green-800"
    else if status == "pending" then "bg-yellow-100 text-yellow-800"
    else if status == "processing" then "bg-blue-100 text-blue-800"
    else if status == "shipped" then "bg-purple-100 text-purple-800"
    else RedBadge
  }

  /** The four non-red statuses get four different classes. */
  lemma BadgeClassesDistinct(s: string, t: string)
    requires s in ["delivered", "pending", "processing", "shipped"]
    requires t in ["delivered", "pending", "processing", "shipped"]
    ensures BadgeClass(s) == BadgeClass(t) <==> s == t
  {
  }

  /** The badge colour is case-sensitive while its label is not: "Delivered"
      is labelled "Livré" yet shown in red. */
  lemma BadgeCaseMismatch()
    ensures BadgeClass("Delivered") == RedBadge
    ensures TranslateStatus("Delivered") == TranslateStatus("delivered") == "Livré"
  {
    assert Lower("Delivered") == "delivered";
  }

  /** The state of the dashboard page. */
  class DashboardView {
    var stats: Stats
    var isLoading: bool

    constructor ()
      ensures stats == ZeroStats && isLoading
    {
      stats := ZeroStats;
      isLoading := true;
    }

    /** `fetchDashboardData`: a successful answer installs its statistics
        with missing values defaulted; an unsuccessful one changes nothing;
        an error resets every statistic (a successful answer without a
        `stats` object throws while being read, and is reset the same way);
        `isLoading` is false afterwards on every path. */
    method FetchDashboardData(reply: DashboardReply)
      modifies this
      ensures !isLoading
      ensures reply.DashboardAnswer? && reply.success && reply.stats.Some? ==> stats == StatsFrom(reply.stats.value)
      ensures reply.DashboardAnswer? && !reply.success ==> stats == old(stats)
      ensures reply.DashboardThrown? || (reply.DashboardAnswer? && reply.success && reply.stats.None?) ==>
                stats == ZeroStats
    {
      match reply {
        case DashboardAnswer(success, server) =>
          if success {
            if server.Some? {
              stats := StatsFrom(server.value);
            } else {
              stats := ZeroStats;
            }
          }
        case DashboardThrown =>
          stats := ZeroStats;
      }
      isLoading := false;
    }
  }
}

=== FILE: my_orders.dfy ===
/** The customer's order history: the status tabs (exact matches), the
    status colours and capitalised labels, and which of the page's views is
    shown. */
module MyOrders {
  import opened Common

  /** An order as the page lists it; `total` in the smallest currency unit. */
  datatype CustomerOrder = CustomerOrder(id: string, date: string, status: string, total: int)

  const AllTab: string := "all"

  /** The tab buttons, in display order. */
  const Tabs: seq<string> := [AllTab, "processing", "delivered", "cancelled"]

  /** The two sample orders the page loads in place of a backend call. */
  const MockOrders: seq<CustomerOrder> := [
    CustomerOrder("1", "2024-03-15", "delivered", 29999),
    CustomerOrder("2", "2024-03-10", "processing", 14999)
  ]

  const DeliveredClass: string := "bg-green-100 text-green-800"
  const ProcessingClass: string := "bg-blue-100 text-blue-800"
  const CancelledClass: string := "bg-red-100 text-red-800"
  const GrayClass: string := "bg-gray-100 text-gray-800"

  function HasStatus(tab: string): CustomerOrder -> bool {
    (o: CustomerOrder) => o.status == tab
  }

  /** `filteredOrders`: every order under "all", otherwise the orders whose
      status equals the tab exactly (case counts), in list order. */
  function FilterByTab(orders: seq<CustomerOrder>, tab: string): (r: seq<CustomerOrder>)
    ensures tab == AllTab ==> r == orders
    ensures tab != AllTab ==> forall o :: o in r <==> o in orders && o.status == tab
    ensures IsSubsequence(r, orders)
  {
    if tab == AllTab then
      SubsequenceReflexive(orders);
      orders
    else
      FilterIsSubsequence(orders, HasStatus(tab));
      Filter(orders, HasStatus(tab))
  }

  /** Unlike the seller's list, a status in another case matches no tab:
      an order "Delivered" is missing from the "delivered" tab. */
  lemma FilterByTabIsCaseSensitive(o: CustomerOrder)
    requires o.status == "Delivered"
    ensures FilterByTab([o], "delivered") == []
  {
    assert o !in FilterByTab([o], "delivered");
  }

  /** Under a status tab every copy of a matching order is kept and no copy of
      any other: with order preservation this fixes the tab's list exactly. */
  lemma FilterByTabCount(orders: seq<CustomerOrder>, tab: string, o: CustomerOrder)
    requires tab != AllTab
    ensures multiset(FilterByTab(orders, tab))[o] == if o.status == tab then multiset(orders)[o] else 0
  {
    FilterCount(orders, HasStatus(tab), o);
  }

  /** `getStatusColor`: its own class for each of delivered, processing and
      cancelled (exact matches), gray for anything else. */
  function StatusColor(status: string): (cls: string)
    ensures cls == GrayClass <==> status !in ["delivered", "processing", "cancelled"]
    ensures status == "delivered" ==> cls == DeliveredClass
    ensures status == "processing" ==> cls == ProcessingClass
    ensures status == "cancelled" ==> cls == CancelledClass
  {
    if status == "delivered" then DeliveredClass
    else if status == "processing" then ProcessingClass
    else if status == "cancelled" then CancelledClass
    else GrayClass
  }

  /** The three named statuses get three different colours: two statuses
      share a class exactly when they are equal or both unnamed. */
  lemma StatusColorDistinguishesNamed(s1: string, s2: string)
    requires s1 in ["delivered", "processing", "cancelled"]
    ensures StatusColor(s1) == StatusColor(s2) <==> s1 == s2
  {
  }

  /** `s.charAt(0).toUpperCase() + s.slice(1)`: the first character in upper
      case, the rest unchanged. */
  function Capitalize(s: string): (r: string)
    ensures |r| == |s|
    ensures |s| > 0 ==> r[0] == UpperChar(s[0]) && r[1..] == s[1..]
  {
    if s == [] then [] else [UpperChar(s[0])] + s[1..]
  }

  /** Capitalising twice changes nothing more. */
  lemma CapitalizeIdempotent(s: string)
    ensures Capitalize(Capitalize(s)) == Capitalize(s)
  {
    if s != [] {
      var c := s[0];
      assert UpperChar(UpperChar(c)) == UpperChar(c);
    }
  }

  /** The tab captions read "All", "Processing", "Delivered", "Cancelled". */
  lemma TabCaptions()
    ensures Capitalize(Tabs[0]) == "All" && Capitalize(Tabs[1]) == "Processing"
    ensures Capitalize(Tabs[2]) == "Delivered" && Capitalize(Tabs[3]) == "Cancelled"
  {
    assert Tabs[0][1..] == "ll";
    assert Tabs[1][1..] == "rocessing";
    assert Tabs[2][1..] == "elivered";
    assert Tabs[3][1..] == "ancelled";
  }

  /** What the page shows. */
  datatype OrdersView =
    | LoginRequired
    | Spinner
    | NoOrdersFound
    | OrderCards(orders: seq<CustomerOrder>)

  /** The login gate comes first, then the loading spinner, then either the
      "No Orders Found" panel or one card per order of the tab. */
  function View(loggedIn: bool, loading: bool, orders: seq<CustomerOrder>, tab: string): (v: OrdersView)
    ensures !loggedIn <==> v == LoginRequired
    ensures loggedIn && loading ==> v == Spinner
    ensures loggedIn && !loading && FilterByTab(orders, tab) != [] ==> v == OrderCards(FilterByTab(orders, tab))
    ensures loggedIn && !loading ==>
              (v == NoOrdersFound <==> FilterByTab(orders, tab) == []) &&
              (v.OrderCards? ==> v.orders == FilterByTab(orders, tab))
    ensures v.OrderCards? ==> IsSubsequence(v.orders, orders) && v.orders != []
  {
    if !loggedIn then LoginRequired
    else if loading then Spinner
    else
      var shown := FilterByTab(orders, tab);
      if |shown| == 0 then NoOrdersFound else OrderCards(shown)
  }

  /** Once loaded, the sample data shows one card under "processing" and
      nothing under "cancelled". */
  lemma MockOrdersByTab()
    ensures View(true, false, MockOrders, "processing") == OrderCards([MockOrders[1]])
    ensures View(true, false, MockOrders, "cancelled") == NoOrdersFound
  {
    assert FilterByTab(MockOrders, "processing") == [MockOrders[1]] by {
      assert MockOrders[1..] == [MockOrders[1]];
    }
  }
}

=== FILE: orders.dfy ===
/** The seller-side order record and the French status labels the order list
    and the dashboard both display. */
module Orders {
  import opened Common

  /** A seller-side order: its id, its displayed number, its status as the
      backend stores it, and its total (absent on some records). */
  datatype Order = Order(id: string, orderNumber: string, status: string, totalAmount: Option<int>)

  /** The five statuses the backend uses, in the order the tabs and the
      status selector list them. */
  const KnownStatuses: seq<string> := ["pending", "processing", "shipped", "delivered", "cancelled"]

  const FrenchLabels: seq<string> := ["En attente", "En traitement", "Expédié", "Livré", "Annulé"]

  /** `statusMap[status.toLowerCase()] || status`: the French label of a known
      status, compared without regard to case; any other status as it is. */
  function TranslateStatus(status: string): (text: string)
    ensures Lower(status) !in KnownStatuses ==> text == status
    ensures forall k :: 0 <= k < |KnownStatuses| && Lower(status) == KnownStatuses[k] ==> text == FrenchLabels[k]
  {
    var key := Lower(status);
    if key == "pending" then "En attente"
    else if key == "processing" then "En traitement"
    else if key == "shipped" then "Expédié"
    else if key == "delivered" then "Livré"
    else if key == "cancelled" then "Annulé"
    else status
  }

  /** Two spellings of a known status that differ only in ASCII case get the
      same label, and two known statuses with the same label are the same
      status. */
  lemma TranslateStatusCaseInsensitive(s: string, t: string)
    requires Lower(s) in KnownStatuses && Lower(t) in KnownStatuses
    ensures TranslateStatus(s) == TranslateStatus(t) <==> Lower(s) == Lower(t)
  {
  }

  /** A known status never comes back unchanged: its label is one of the five
      French labels and not the status itself. */
  lemma TranslateKnownIsFrench(s: string)
    requires Lower(s) in KnownStatuses
    ensures TranslateStatus(s) in FrenchLabels
    ensures TranslateStatus(s) !in KnownStatuses
  {
  }
}

=== FILE: orders_list.dfy ===
/** The seller's order list: the status tabs, the local status update and
    deletion after the backend confirms them, the per-order expand flags, and
    the status colours. */
module OrdersList {
  import opened Common
  import opened Storefront
  import opened Orders

  const AllTab: string := "all"

  const GrayClass: string := "bg-gray-50 text-gray-700 border-gray-200"

  /** Whether an order belongs to a (non-"all") tab: equal statuses ignoring
      ASCII case. */
  function InTab(tab: string): Order -> bool {
    (o: Order) => Lower(o.status) == Lower(tab)
  }

  /** `filteredOrders`: every order under "all", otherwise the orders whose
      status equals the tab ignoring case, in list order. */
  function FilterByTab(orders: seq<Order>, tab: string): (r: seq<Order>)
    ensures tab == AllTab ==> r == orders
    ensures tab != AllTab ==> forall o :: o in r <==> o in orders && Lower(o.status) == Lower(tab)
    ensures IsSubsequence(r, orders)
  {
    if tab == AllTab then
      SubsequenceReflexive(orders);
      orders
    else
      FilterIsSubsequence(orders, InTab(tab));
      Filter(orders, InTab(tab))
  }

  /** Under a status tab every copy of a matching order is kept and no copy of
      any other: with order preservation this fixes the tab's list exactly. */
  lemma FilterByTabCount(orders: seq<Order>, tab: string, o: Order)
    requires tab != AllTab
    ensures multiset(FilterByTab(orders, tab))[o] ==
              if Lower(o.status) == Lower(tab) then multiset(orders)[o] else 0
  {
    FilterCount(orders, InTab(tab), o);
  }

  /** The tab lists of the five statuses split the orders with a known status:
      such an order appears under exactly one status tab. */
  lemma KnownStatusInOneTab(orders: seq<Order>, o: Order, k: nat)
    requires o in orders && k < |KnownStatuses| && Lower(o.status) == KnownStatuses[k]
    ensures o in FilterByTab(orders, KnownStatuses[k])
    ensures forall j :: 0 <= j < |KnownStatuses| && j != k ==> o !in FilterByTab(orders, KnownStatuses[j])
  {
    forall j | 0 <= j < |KnownStatuses| && j != k
      ensures o !in FilterByTab(orders, KnownStatuses[j])
    {
      assert Lower(KnownStatuses[j]) == KnownStatuses[j];
      assert Lower(KnownStatuses[k]) == KnownStatuses[k];
    }
    assert Lower(KnownStatuses[k]) == KnownStatuses[k];
  }

  /** The local update after a confirmed status change: every order with the
      id takes the new status, and nothing else changes. */
  function SetStatus(orders: seq<Order>, id: string, status: string): (r: seq<Order>)
    ensures |r| == |orders|
    ensures forall i :: 0 <= i < |orders| && orders[i].id == id ==> r[i] == orders[i].(status := status)
    ensures forall i :: 0 <= i < |orders| && orders[i].id != id ==> r[i] == orders[i]
  {
    if orders == [] then []
    else
      var head := if orders[0].id == id then orders[0].(status := status) else orders[0];
      [head] + SetStatus(orders[1..], id, status)
  }

  /** Applying the same status change twice is the same as applying it once. */
  lemma SetStatusIdempotent(orders: seq<Order>, id: string, status: string)
    ensures SetStatus(SetStatus(orders, id, status), id, status) == SetStatus(orders, id, status)
  {
  }

  /** After a status change the order shows up under the tab of its new
      status, with its id, number and total unchanged. */
  lemma SetStatusMovesToTab(orders: seq<Order>, i: nat, status: string)
    requires i < |orders| && status != AllTab
    ensures orders[i].(status := status) in FilterByTab(SetStatus(orders, orders[i].id, status), status)
  {
    var r := SetStatus(orders, orders[i].id, status);
    assert r[i] == orders[i].(status := status);
    assert r[i] in r;
  }

  function HasId(id: string): Order -> bool {
    (o: Order) => o.id == id
  }

  function LacksId(id: string): Order -> bool {
    (o: Order) => o.id != id
  }

  /** The local update after a confirmed deletion: the orders with that id
      are gone, every other order stays, in order, and the list shrinks by
      exactly the number of orders that carried the id. */
  function RemoveOrder(orders: seq<Order>, id: string): (r: seq<Order>)
    ensures forall o :: o in r <==> o in orders && o.id != id
    ensures IsSubsequence(r, orders)
    ensures |r| == |orders| - CountWhere(orders, HasId(id))
  {
    FilterIsSubsequence(orders, LacksId(id));
    FilterLength(orders, LacksId(id));
    CountWhereComplement(orders, HasId(id), LacksId(id));
    Filter(orders, LacksId(id))
  }

  /** Deleting an id that no order carries leaves the list as it was. */
  lemma RemoveAbsentOrder(orders: seq<Order>, id: string)
    requires forall o :: o in orders ==> o.id != id
    ensures RemoveOrder(orders, id) == orders
  {
    FilterKeepsAll(orders, LacksId(id));
  }

  /** `expandedOrders[id]` read as a boolean: an id never toggled is
      collapsed. */
  predicate IsExpanded(expanded: map<string, bool>, id: string) {
    id in expanded && expanded[id]
  }

  /** `{ ...prev, [id]: !prev[id] }`. */
  function Toggle(expanded: map<string, bool>, id: string): (r: map<string, bool>)
    ensures IsExpanded(r, id) <==> !IsExpanded(expanded, id)
    ensures forall other :: other != id ==> IsExpanded(r, other) == IsExpanded(expanded, other)
    ensures r.Keys == expanded.Keys + {id}
  {
    expanded[id := !IsExpanded(expanded, id)]
  }

  /** Toggling the same order twice shows every order as it was. */
  lemma {:induction false} ToggleTwice(expanded: map<string, bool>, id: string)
    ensures forall other :: IsExpanded(Toggle(Toggle(expanded, id), id), other) == IsExpanded(expanded, other)
  {
    var once := Toggle(expanded, id);
    var twice := Toggle(once, id);
    assert IsExpanded(once, id) == !IsExpanded(expanded, id);
    assert IsExpanded(twice, id) == !IsExpanded(once, id);
  }

  /** `getStatusColor`: a class per known status, compared without regard to
      case, and gray for anything else. */
  function StatusColor(status: string): (cls: string)
    ensures Lower(status) !in KnownStatuses <==> cls == GrayClass
  {
    var key := Lower(status);
    if key == "pending" then "bg-yellow-50 text-yellow-700 border-yellow-200"
    else if key == "processing" then "bg-blue-50 text-blue-700 border-blue-200"
    else if key == "shipped" then "bg-purple-50 text-purple-700 border-purple-200"
    else if key == "delivered" then "bg-green-50 text-green-700 border-green-200"
    else if key == "cancelled" then "bg-red-50 text-red-700 border-red-200"
    else GrayClass
  }

  /** Known statuses that differ only in case share a colour, and distinct
      known statuses get distinct colours. */
  lemma StatusColorDistinguishesKnown(s: string, t: string)
    requires Lower(s) in KnownStatuses && Lower(t) in KnownStatuses
    ensures StatusColor(s) == StatusColor(t) <==> Lower(s) == Lower(t)
  {
  }

  /** The state of the seller's order list. */
  class OrdersView {
    var orders: seq<Order>
    var loading: bool
    var activeTab: string
    var expandedOrders: map<string, bool>
    var deletingOrderId: Option<string>

    constructor ()
      ensures orders == [] && loading && activeTab == AllTab
      ensures expandedOrders == map[] && deletingOrderId == None
    {
      orders := [];
      loading := true;
      activeTab := AllTab;
      expandedOrders := map[];
      deletingOrderId := None;
    }

    /** `fetchOrders` (also run by the 30-second poll): a successful answer
        replaces the list; otherwise the list is kept. */
    method FetchOrders(reply: Reply, fetched: seq<Order>)
      modifies this`orders, this`loading
      ensures orders == if Succeeded(reply) then fetched else old(orders)
      ensures !loading
    {
      loading := true;
      if reply.Answered? && reply.success {
        orders := fetched;
      }
      loading := false;
    }

    method SelectTab(tab: string)
      modifies this`activeTab
      ensures activeTab == tab
    {
      activeTab := tab;
    }

    /** The orders the current tab shows: the active tab's filter of the
        list, whose meaning `FilterByTab` and `FilterByTabCount` state. */
    function FilteredOrders(): (r: seq<Order>)
      reads this
      ensures r == FilterByTab(orders, activeTab)
      ensures IsSubsequence(r, orders)
    {
      FilterByTab(orders, activeTab)
    }

    /** `toggleOrderDetails`. */
    method ToggleOrderDetails(id: string)
      modifies this`expandedOrders
      ensures expandedOrders == Toggle(old(expandedOrders), id)
    {
      expandedOrders := expandedOrders[id := !IsExpanded(expandedOrders, id)];
    }

    /** `handleStatusChange`: the list changes only when the backend confirms
        the update, and then only the status of the orders with that id. */
    method HandleStatusChange(id: string, newStatus: string, reply: Reply)
      modifies this`orders
      ensures orders == if Succeeded(reply) then SetStatus(old(orders), id, newStatus) else old(orders)
    {
      if reply.Answered? && reply.success {
        orders := SetStatus(orders, id, newStatus);
      }
    }

    /** `handleDeleteOrder` up to the request: the order being deleted is
        recorded. */
    method BeginDelete(id: string)
      modifies this`deletingOrderId
      ensures deletingOrderId == Some(id)
    {
      deletingOrderId := Some(id);
    }

    /** `handleDeleteOrder` after the request for `orderId`: a confirmed
        deletion removes the orders with the handler's own id, whatever
        deletion was recorded last (nothing stops two deletions from
        overlapping); the record of the pending deletion is cleared on every
        path. */
    method FinishDelete(orderId: string, reply: Reply)
      modifies this`orders, this`deletingOrderId
      ensures orders == if Succeeded(reply) then RemoveOrder(old(orders), orderId) else old(orders)
      ensures deletingOrderId == None
    {
      if reply.Answered? && reply.success {
        orders := RemoveOrder(orders, orderId);
      }
      deletingOrderId := None;
    }
  }
}

=== FILE: product_category.dfy ===
/** The category page: the category the route parameter names, the products
    kept for it, the in-stock grid or the "nothing found" message, and the
    title. */
module ProductCategory {
  import opened Common
  import opened Storefront

  const NoProductsMessage: string := "No products found in this category."

  function PathIs(param: string): Category -> bool {
    (c: Category) => Lower(c.path) == param
  }

  /** `searchCategory`: the first category whose lower-cased path equals the
      route parameter as it stands (the parameter itself is not
      lower-cased). */
  function MatchCategory(categories: seq<Category>, param: string): (r: Option<Category>)
    ensures r.Some? ==> Lower(r.value.path) == param
    ensures r.Some? ==> exists k :: 0 <= k < |categories| && categories[k] == r.value &&
                                    forall j :: 0 <= j < k ==> Lower(categories[j].path) != param
    ensures r.None? <==> forall c :: c in categories ==> Lower(c.path) != param
  {
    match FindFirst(categories, PathIs(param))
    case None => None
    case Some(k) => Some(categories[k])
  }

  /** `searchCategory?.path?.toLowerCase() || category`: the key the
      products are compared with. */
  function CategoryKey(categories: seq<Category>, param: string): string {
    var found := MatchCategory(categories, param);
    if found.Some? && Lower(found.value.path) != "" then Lower(found.value.path) else param
  }

  /** A matched category's lower-cased path equals the parameter, so the key
      is always the route parameter itself. */
  lemma CategoryKeyIsParam(categories: seq<Category>, param: string)
    ensures CategoryKey(categories, param) == param
  {
  }

  function CategoryIs(key: string): Product -> bool {
    (p: Product) => Lower(p.category) == key
  }

  /** `filteredProducts`: the catalog products whose lower-cased category
      equals the key, in catalog order. */
  function Kept(categories: seq<Category>, products: seq<Product>, param: string): (r: seq<Product>)
    ensures forall p :: p in r <==> p in products && Lower(p.category) == param
    ensures IsSubsequence(r, products)
    ensures |r| == CountWhere(products, CategoryIs(param))
  {
    CategoryKeyIsParam(categories, param);
    FilterIsSubsequence(products, CategoryIs(CategoryKey(categories, param)));
    FilterLength(products, CategoryIs(CategoryKey(categories, param)));
    Filter(products, CategoryIs(CategoryKey(categories, param)))
  }

  /** Since a lower-cased category never holds an upper-case ASCII letter, a
      route parameter that holds one keeps no product. */
  lemma UpperCaseParamKeepsNothing(categories: seq<Category>, products: seq<Product>, param: string, i: nat)
    requires i < |param| && IsUpperAscii(param[i])
    ensures Kept(categories, products, param) == []
  {
  }

  /** What the grid area shows. */
  datatype CategoryGrid = NoProducts | Grid(products: seq<Product>)

  /** The message appears when nothing is kept; otherwise the in-stock kept
      products are shown, possibly none of them. */
  function GridOf(categories: seq<Category>, products: seq<Product>, param: string): (g: CategoryGrid)
    ensures g == NoProducts <==> forall p :: p in products ==> Lower(p.category) != param
    ensures g.Grid? ==> forall p :: p in g.products <==> p in products && p.inStock && Lower(p.category) == param
    ensures g.Grid? ==> IsSubsequence(g.products, products)
    ensures g.Grid? ==> g.products == InStockOnly(Kept(categories, products, param))
  {
    var kept := Kept(categories, products, param);
    if |kept| == 0 then NoProducts
    else
      SubsequenceTransitive(InStockOnly(kept), kept, products);
      Grid(InStockOnly(kept))
  }

  /** A category whose products are all out of stock shows an empty grid,
      not the "nothing found" message. */
  lemma OutOfStockShowsEmptyGrid(categories: seq<Category>, products: seq<Product>, param: string, q: Product)
    requires q in products && Lower(q.category) == param
    requires forall p :: p in products ==> !p.inStock
    ensures GridOf(categories, products, param) == Grid([])
  {
  }

  /** The heading: the matched category's text in upper case, or else the
      route parameter in upper case. Lower-casing the heading gives back the
      lower-cased text, so with no lower-case letter left it is that text
      upper-cased, letter by letter. */
  function Title(categories: seq<Category>, param: string): (t: string)
    ensures MatchCategory(categories, param).Some? ==> |t| == |MatchCategory(categories, param).value.text|
    ensures MatchCategory(categories, param).None? ==> |t| == |param|
    ensures forall i :: 0 <= i < |t| ==> !IsLowerAscii(t[i])
    ensures MatchCategory(categories, param).Some? ==> Lower(t) == Lower(MatchCategory(categories, param).value.text)
    ensures MatchCategory(categories, param).None? ==> Lower(t) == Lower(param)
  {
    match MatchCategory(categories, param)
    case Some(c) =>
      LowerOfUpper(c.text);
      Upper(c.text)
    case None =>
      LowerOfUpper(param);
      Upper(param)
  }
}

=== FILE: product_details.dfy ===
/** The product page: which product the route id selects, the related and
    other products listed under it, the price block, and the cart quantity
    control. */
module ProductDetails {
  import opened Common
  import opened Storefront

  const MaxRelated: nat := 6
  const MaxOthers: nat := 4

  /** The page shows a loading message until the route id is found in the
      catalog. */
  datatype DetailsPage = Loading | Details(product: Product)

  /** `products.find((p) => p._id === id)` as the selected product. */
  function SelectProduct(products: seq<Product>, id: string): (page: DetailsPage)
    ensures page.Loading? <==> forall p :: p in products ==> p.id != id
    ensures page.Details? ==> page.product.id == id
    ensures page.Details? ==> exists k :: 0 <= k < |products| && products[k] == page.product &&
                                          forall j :: 0 <= j < k ==> products[j].id != id
  {
    match FindById(products, id)
    case None => Loading
    case Some(p) => Details(p)
  }

  function IsRelated(selected: Product): Product -> bool {
    (p: Product) => p.category == selected.category && p.id != selected.id
  }

  function IsOther(selected: Product): Product -> bool {
    (p: Product) => p.category != selected.category && p.id != selected.id
  }

  /** `relatedProducts`: the first six catalog products of the selected
      product's category other than the selected product itself. */
  function Related(products: seq<Product>, selected: Product): (r: seq<Product>)
    ensures |r| <= MaxRelated
    ensures r <= Filter(products, IsRelated(selected))
    ensures |r| == if CountWhere(products, IsRelated(selected)) <= MaxRelated then CountWhere(products, IsRelated(selected)) else MaxRelated
    ensures forall p :: p in r ==> p in products && p.category == selected.category && p.id != selected.id
    ensures IsSubsequence(r, products)
    ensures CountWhere(products, IsRelated(selected)) <= MaxRelated ==>
              forall p :: p in products && p.category == selected.category && p.id != selected.id ==> p in r
  {
    var all := Filter(products, IsRelated(selected));
    FilterIsSubsequence(products, IsRelated(selected));
    FilterLength(products, IsRelated(selected));
    PrefixIsSubsequence(all, |Take(all, MaxRelated)|);
    SubsequenceTransitive(Take(all, MaxRelated), all, products);
    SubsequenceMembers(Take(all, MaxRelated), all);
    Take(all, MaxRelated)
  }

  /** `otherProducts`: the first four catalog products of any other
      category, the selected product excluded. */
  function Others(products: seq<Product>, selected: Product): (r: seq<Product>)
    ensures |r| <= MaxOthers
    ensures r <= Filter(products, IsOther(selected))
    ensures |r| == if CountWhere(products, IsOther(selected)) <= MaxOthers then CountWhere(products, IsOther(selected)) else MaxOthers
    ensures forall p :: p in r ==> p in products && p.category != selected.category && p.id != selected.id
    ensures IsSubsequence(r, products)
    ensures CountWhere(products, IsOther(selected)) <= MaxOthers ==>
              forall p :: p in products && p.category != selected.category && p.id != selected.id ==> p in r
  {
    var all := Filter(products, IsOther(selected));
    FilterIsSubsequence(products, IsOther(selected));
    FilterLength(products, IsOther(selected));
    PrefixIsSubsequence(all, |Take(all, MaxOthers)|);
    SubsequenceTransitive(Take(all, MaxOthers), all, products);
    SubsequenceMembers(Take(all, MaxOthers), all);
    Take(all, MaxOthers)
  }

  /** The two lists under the product never share a product and never show
      the selected product. */
  lemma RelatedOthersDisjoint(products: seq<Product>, selected: Product)
    ensures forall p :: p in Related(products, selected) ==> p !in Others(products, selected)
    ensures selected !in Related(products, selected) && selected !in Others(products, selected)
  {
  }

  /** The price block: the price shown, the list price struck through, and
      the savings line. */
  datatype PriceBlock = PriceBlock(shown: int, struck: Option<int>, savings: Option<int>)

  /** `offerPrice || price` is shown; the struck list price and the savings
      `price - offerPrice` appear only for a truthy offer price. */
  function PriceBlockOf(p: Product): (b: PriceBlock)
    ensures b.struck.Some? <==> HasOffer(p)
    ensures b.savings.Some? <==> HasOffer(p)
    ensures !HasOffer(p) ==> b.shown == p.price
    ensures b.savings.Some? ==> b.shown + b.savings.value == p.price && b.struck == Some(p.price)
    ensures OfferAtMostPrice(p) ==> b.shown <= p.price && (b.savings.Some? ==> b.savings.value >= 0)
  {
    if HasOffer(p) then
      PriceBlock(p.offerPrice.value, Some(p.price), Some(p.price - p.offerPrice.value))
    else
      PriceBlock(p.price, None, None)
  }

  /** The product page and the checkout charge the same unit price. */
  lemma ShownPriceIsCheckoutPrice(p: Product)
    ensures PriceBlockOf(p).shown == EffectivePrice(p)
  {
  }

  /** `cartItems[id] || 0`: the quantity between the buttons. */
  function CartQuantity(cart: CartEntries, id: string): (n: nat)
    ensures (id, n) in cart || (n == 0 && forall e :: e in cart ==> e.0 != id)
  {
    match Lookup(cart, id)
    case None => 0
    case Some(q) => q
  }

  /** `!cartItems[id]` on the "-" button. */
  predicate MinusDisabled(cart: CartEntries, id: string) {
    var q := Lookup(cart, id);
    q.None? || q.value == 0
  }

  /** The "-" button is disabled exactly when the displayed quantity is 0,
      and always when the product has no cart entry. */
  lemma MinusDisabledIffZero(cart: CartEntries, id: string)
    ensures MinusDisabled(cart, id) <==> CartQuantity(cart, id) == 0
    ensures (forall e :: e in cart ==> e.0 != id) ==> MinusDisabled(cart, id)
  {
  }

  /** With distinct cart keys the displayed quantity is the one stored under
      the product's id. */
  lemma CartQuantityOfEntry(cart: CartEntries, id: string, q: nat)
    requires DistinctKeys(cart) && (id, q) in cart
    ensures CartQuantity(cart, id) == q
  {
    var n := CartQuantity(cart, id);
    var i :| 0 <= i < |cart| && cart[i] == (id, q);
    var j :| 0 <= j < |cart| && cart[j] == (id, n);
    assert i == j;
  }
}

=== FILE: products_list.dfy ===
/** The seller's product table: the inline edit form and its update
    request, the stock toggle, and the confirmed deletion. */
module ProductsList {
  import opened Common
  import opened Storefront

  /** A price input: empty, or holding an amount. Reading the typed text as a
      number is not modelled. */
  datatype FormPrice = Blank | Entered(amount: int)

  datatype EditForm = EditForm(name: string, price: FormPrice, offerPrice: FormPrice, category: string, inStock: bool)

  /** The form as it starts and as a cancelled edit leaves it. */
  const BlankForm: EditForm := EditForm("", Blank, Blank, "", true)

  /** One change of one input of the edit form. */
  datatype EditInput =
    | NameInput(name: string)
    | CategoryInput(category: string)
    | PriceInput(price: FormPrice)
    | OfferPriceInput(offerPrice: FormPrice)
    | StockInput(inStock: bool)

  /** `setEditForm({ ...editForm, [field]: value })`: the input's field
      takes the value and every other field keeps its own. */
  function ApplyInput(form: EditForm, input: EditInput): (r: EditForm)
    ensures input.NameInput? ==> r.name == input.name
    ensures input.CategoryInput? ==> r.category == input.category
    ensures input.PriceInput? ==> r.price == input.price
    ensures input.OfferPriceInput? ==> r.offerPrice == input.offerPrice
    ensures input.StockInput? ==> r.inStock == input.inStock
    ensures !input.NameInput? ==> r.name == form.name
    ensures !input.CategoryInput? ==> r.category == form.category
    ensures !input.PriceInput? ==> r.price == form.price
    ensures !input.OfferPriceInput? ==> r.offerPrice == form.offerPrice
    ensures !input.StockInput? ==> r.inStock == form.inStock
  {
    match input
    case NameInput(v) => form.(name := v)
    case CategoryInput(v) => form.(category := v)
    case PriceInput(v) => form.(price := v)
    case OfferPriceInput(v) => form.(offerPrice := v)
    case StockInput(v) => form.(inStock := v)
  }

  /** The form `handleEdit` fills from a product: its fields as they are,
      and an empty offer price when the product's is missing or 0. */
  function FormOf(p: Product): (f: EditForm)
    ensures f.name == p.name && f.category == p.category && f.inStock == p.inStock
    ensures f.price == Entered(p.price)
    ensures f.offerPrice == Blank <==> !HasOffer(p)
    ensures f.offerPrice.Entered? ==> Some(f.offerPrice.amount) == p.offerPrice
  {
    EditForm(p.name, Entered(p.price), if HasOffer(p) then Entered(p.offerPrice.value) else Blank, p.category, p.inStock)
  }

  /** The body of `PUT /api/product/update`. A blank price reads as `NaN`,
      modelled as `None`; a blank offer price is sent as `null`. */
  datatype UpdateRequest = UpdateRequest(
    id: Option<string>,
    name: string,
    price: Option<int>,
    offerPrice: Option<int>,
    category: string,
    inStock: bool)

  function AmountOf(p: FormPrice): Option<int> {
    match p
    case Blank => None
    case Entered(v) => Some(v)
  }

  /** The update request built from the form: the edited id, the form's
      text and stock fields, and each entered amount as it stands. */
  function UpdateRequestOf(id: Option<string>, form: EditForm): (req: UpdateRequest)
    ensures req.id == id && req.name == form.name && req.category == form.category && req.inStock == form.inStock
    ensures req.offerPrice.None? <==> form.offerPrice == Blank
    ensures req.price.None? <==> form.price == Blank
    ensures forall n :: form.price == Entered(n) ==> req.price == Some(n)
    ensures forall n :: form.offerPrice == Entered(n) ==> req.offerPrice == Some(n)
  {
    UpdateRequest(id, form.name, AmountOf(form.price), AmountOf(form.offerPrice), form.category, form.inStock)
  }

  /** Editing a product and saving it untouched sends back its own values,
      except that an offer price of 0 is sent as `null`. */
  lemma EditRoundTrip(p: Product)
    ensures var req := UpdateRequestOf(Some(p.id), FormOf(p));
            req.id == Some(p.id) && req.name == p.name && req.category == p.category &&
            req.inStock == p.inStock && req.price == Some(p.price) &&
            (HasOffer(p) ==> req.offerPrice == p.offerPrice) &&
            (!HasOffer(p) ==> req.offerPrice.None?)
  {
  }

  /** The body of `POST /api/product/stock`. */
  datatype StockRequest = StockRequest(id: string, inStock: bool)

  /** The state of the product table. */
  class ProductsListView {
    var editingProduct: Option<string>
    var loading: bool
    var editForm: EditForm

    constructor ()
      ensures editingProduct == None && loading && editForm == BlankForm
    {
      editingProduct := None;
      loading := true;
      editForm := BlankForm;
    }

    /** The first catalog load: the table shows once it is over, whatever
        its outcome. */
    method FinishInitialLoad()
      modifies this`loading
      ensures !loading
    {
      loading := false;
    }

    /** `handleEdit`: the row of the product turns into the form, filled from
        the product. */
    method HandleEdit(p: Product)
      modifies this`editingProduct, this`editForm
      ensures editingProduct == Some(p.id)
      ensures editForm == FormOf(p)
    {
      editingProduct := Some(p.id);
      editForm := FormOf(p);
    }

    /** `handleEditCancel`: no row is edited and the form is blank again. */
    method HandleEditCancel()
      modifies this`editingProduct, this`editForm
      ensures editingProduct == None && editForm == BlankForm
    {
      editingProduct := None;
      editForm := BlankForm;
    }

    /** A change of one input of the form. */
    method HandleFormChange(input: EditInput)
      modifies this`editForm
      ensures editForm == ApplyInput(old(editForm), input)
    {
      editForm := ApplyInput(editForm, input);
    }

    /** `handleEditSubmit`: the request carries the edited id and the form;
        the edit ends only on a successful answer, which also reloads the
        catalog; `loading` is false afterwards. */
    method HandleEditSubmit(reply: Reply) returns (request: UpdateRequest, reload: bool)
      modifies this`editingProduct, this`loading
      ensures request == UpdateRequestOf(old(editingProduct), editForm)
      ensures editingProduct == if Succeeded(reply) then None else old(editingProduct)
      ensures reload <==> Succeeded(reply)
      ensures !loading
    {
      loading := true;
      request := UpdateRequestOf(editingProduct, editForm);
      reload := false;
      if reply.Answered? && reply.success {
        editingProduct := None;
        reload := true;
      }
      loading := false;
    }

    /** `handleStockToggle`: asks for the opposite of the product's current
        stock flag; a successful answer reloads the catalog. */
    method HandleStockToggle(id: string, current: bool, reply: Reply) returns (request: StockRequest, reload: bool)
      modifies this`loading
      ensures request.id == id && request.inStock == !current
      ensures reload <==> Succeeded(reply)
      ensures !loading
    {
      loading := true;
      request := StockRequest(id, !current);
      reload := reply.Answered? && reply.success;
      loading := false;
    }

    /** `handleDelete`: without the user's confirmation nothing is sent and
        nothing changes; with it the id is sent, a successful answer reloads
        the catalog, and `loading` is false afterwards. */
    method HandleDelete(id: string, confirmed: bool, reply: Reply) returns (request: Option<string>, reload: bool)
      modifies this`loading
      ensures !confirmed ==> request.None? && !reload && loading == old(loading)
      ensures confirmed ==> request == Some(id) && (reload <==> Succeeded(reply)) && !loading
    {
      if !confirmed {
        request, reload := None, false;
        return;
      }
      loading := true;
      request := Some(id);
      reload := reply.Answered? && reply.success;
      loading := false;
    }
  }
}

=== FILE: seller_login.dfy ===
/** The seller login form: its checks on submission, with the demonstration
    credentials built into it, and when it is rendered. */
module SellerLogin {
  import opened Common

  const DemoEmail: string := "seller@example.com"
  const DemoPassword: string := "password"
  const FillAllFieldsMessage: string := "Please fill in all fields."
  const InvalidCredentialsMessage: string := "Invalid email or password"
  const SellerPath: string := "/seller"

  /** The outcome of a submission, checked in the handler's order. */
  datatype LoginOutcome = MissingField | Accepted | Rejected

  function Check(email: string, password: string): (o: LoginOutcome)
    ensures o == MissingField <==> email == "" || password == ""
    ensures o == Accepted <==> email == DemoEmail && password == DemoPassword
  {
    if email == "" || password == "" then MissingField
    else if email == DemoEmail && password == DemoPassword then Accepted
    else Rejected
  }

  /** The form state and the shared seller flag it sets. */
  class LoginForm {
    var email: string
    var password: string
    var error: string
    var isSeller: bool

    constructor (seller: bool)
      ensures email == "" && password == "" && error == "" && isSeller == seller
    {
      email := "";
      password := "";
      error := "";
      isSeller := seller;
    }

    method SetEmail(value: string)
      modifies this`email
      ensures email == value
    {
      email := value;
    }

    method SetPassword(value: string)
      modifies this`password
      ensures password == value
    {
      password := value;
    }

    /** `onSubmitHandler`: an empty field is reported first; the
        demonstration credentials clear the error, make the user a seller
        and open the seller area; anything else is reported as invalid. Only
        the demonstration credentials change `isSeller`. */
    method OnSubmit() returns (navigateTo: Option<string>)
      modifies this`error, this`isSeller
      ensures Check(email, password) == MissingField ==>
                error == FillAllFieldsMessage && isSeller == old(isSeller) && navigateTo.None?
      ensures Check(email, password) == Rejected ==>
                error == InvalidCredentialsMessage && isSeller == old(isSeller) && navigateTo.None?
      ensures Check(email, password) == Accepted ==>
                error == "" && isSeller && navigateTo == Some(SellerPath)
    {
      navigateTo := None;
      if email == "" || password == "" {
        error := FillAllFieldsMessage;
        return;
      }
      if email == DemoEmail && password == DemoPassword {
        error := "";
        isSeller := true;
        navigateTo := Some(SellerPath);
      } else {
        error := InvalidCredentialsMessage;
      }
    }

    /** `!isSeller && <form>`: the form shows only to a non-seller. */
    predicate FormShown()
      reads this
    {
      !isSeller
    }
  }

  /** The effect on the seller flag: once a seller, always sent to the
      seller area. */
  function RedirectFor(isSeller: bool): (to: Option<string>)
    ensures to.Some? <==> isSeller
    ensures to.Some? ==> to.value == SellerPath
  {
    if isSeller then Some(SellerPath) else None
  }
}

=== FILE: storefront.dfy ===
/** The records the storefront pages share: catalog products, categories,
    delivery addresses, the customer's cart (product id to quantity), the
    cart joined with the catalog, and the shape of a backend reply. */
module Storefront {
  import opened Common

  /** A catalog product. Prices are whole amounts of the smallest currency
      unit; `offerPrice` is `None` when the record has no offer price. */
  datatype Product = Product(
    id: string,
    name: string,
    category: string,
    price: int,
    offerPrice: Option<int>,
    inStock: bool)

  /** JavaScript truthiness of `product.offerPrice`: present and not 0. */
  predicate HasOffer(p: Product) {
    p.offerPrice.Some? && p.offerPrice.value != 0
  }

  /** `product.offerPrice || product.price`. */
  function EffectivePrice(p: Product): int {
    if HasOffer(p) then p.offerPrice.value else p.price
  }

  /** Catalog invariant: an offer never exceeds the list price. */
  predicate OfferAtMostPrice(p: Product) {
    p.offerPrice.Some? ==> p.offerPrice.value <= p.price
  }

  predicate InStock(p: Product) {
    p.inStock
  }

  /** `products.filter((product) => product.inStock)`: the in-stock products,
      in catalog order. */
  function InStockOnly(products: seq<Product>): (r: seq<Product>)
    ensures forall p :: p in r <==> p in products && p.inStock
    ensures IsSubsequence(r, products)
    ensures |r| == CountWhere(products, InStock)
  {
    FilterIsSubsequence(products, InStock);
    FilterLength(products, InStock);
    Filter(products, InStock)
  }

  /** An entry of the category list the storefront shows. */
  datatype Category = Category(text: string, path: string)

  /** A delivery address. Addresses created in the browser carry no
      `pincode`, hence the option. */
  datatype Address = Address(
    id: string,
    street: string,
    city: string,
    state: string,
    country: string,
    pincode: Option<string>)

  /** The context cart `{ [productId]: quantity }`, in the object's key
      enumeration order. */
  type CartEntries = seq<(string, nat)>

  predicate DistinctKeys(cart: CartEntries) {
    forall i, j :: 0 <= i < j < |cart| ==> cart[i].0 != cart[j].0
  }

  /** `cartItems[id]`: the stored quantity, or nothing when the key is absent. */
  function Lookup(cart: CartEntries, id: string): (r: Option<nat>)
    ensures r.Some? ==> (id, r.value) in cart
    ensures r.None? <==> forall e :: e in cart ==> e.0 != id
  {
    match Find(cart, (e: (string, nat)) => e.0 == id)
    case None => None
    case Some(e) => Some(e.1)
  }

  /** `products.find((p) => p._id === id)`. */
  function FindById(products: seq<Product>, id: string): (r: Option<Product>)
    ensures r.Some? ==> r.value.id == id
    ensures r.Some? ==> exists k :: 0 <= k < |products| && products[k] == r.value &&
                                    forall j :: 0 <= j < k ==> products[j].id != id
    ensures r.None? <==> forall p :: p in products ==> p.id != id
  {
    var k := FindFirst(products, (p: Product) => p.id == id);
    if k.Some? then Some(products[k.value]) else None
  }

  /** A product together with the quantity the cart holds for it
      (`{ ...product, quantity }` in the cart page, `{ product, quantity }`
      in the checkout page). */
  datatype CartLine = CartLine(product: Product, quantity: nat)

  /** The cart joined with the catalog: one line per cart key whose id is
      found in the catalog, in key order. */
  function Join(products: seq<Product>, cart: CartEntries): seq<CartLine>
  {
    if cart == [] then []
    else match FindById(products, cart[0].0)
      case Some(p) => [CartLine(p, cart[0].1)] + Join(products, cart[1..])
      case None => Join(products, cart[1..])
  }

  /** The cart entries whose id resolves in the catalog. */
  function Resolves(products: seq<Product>): ((string, nat)) -> bool {
    (e: (string, nat)) => FindById(products, e.0).Some?
  }

  /** The `(id, quantity)` pair a line came from. */
  function Entries(lines: seq<CartLine>): (r: CartEntries)
    ensures |r| == |lines|
  {
    if lines == [] then [] else [(lines[0].product.id, lines[0].quantity)] + Entries(lines[1..])
  }

  lemma {:induction false} JoinAppend(products: seq<Product>, a: CartEntries, b: CartEntries)
    ensures Join(products, a + b) == Join(products, a) + Join(products, b)
  {
    if a == [] {
      assert a + b == b;
    } else {
      assert (a + b)[0] == a[0] && (a + b)[1..] == a[1..] + b;
      JoinAppend(products, a[1..], b);
    }
  }

  /** The join keeps exactly the resolvable cart entries, in key order and with
      the cart's quantity, and each line carries the catalog's first product
      with that id. */
  lemma {:induction false} JoinSpec(products: seq<Product>, cart: CartEntries)
    ensures Entries(Join(products, cart)) == Filter(cart, Resolves(products))
    ensures forall l :: l in Join(products, cart) ==> FindById(products, l.product.id) == Some(l.product)
  {
    if cart != [] {
      JoinSpec(products, cart[1..]);
      var rest := Join(products, cart[1..]);
      match FindById(products, cart[0].0)
      case Some(p) =>
        var line := CartLine(p, cart[0].1);
        assert Join(products, cart) == [line] + rest;
        assert ([line] + rest)[1..] == rest;
        assert forall l :: l in [line] + rest ==> l == line || l in rest;
      case None =>
    }
  }

  /** The join is empty exactly when no cart key resolves in the catalog. */
  lemma JoinEmptyIff(products: seq<Product>, cart: CartEntries)
    ensures Join(products, cart) == [] <==> forall e :: e in cart ==> FindById(products, e.0).None?
  {
    JoinSpec(products, cart);
    var lines := Join(products, cart);
    if lines != [] {
      assert Entries(lines)[0] in Filter(cart, Resolves(products));
    } else {
      forall e | e in cart ensures FindById(products, e.0).None? {
        assert Resolves(products)(e) ==> e in Filter(cart, Resolves(products));
      }
    }
  }

  /** A backend reply as the handlers see it: an answer carrying `success` and
      an optional `message`, or a thrown request error with the server's
      optional message. */
  datatype Reply = Answered(success: bool, message: Option<string>) | Thrown(message: Option<string>)

  predicate Succeeded(r: Reply) {
    r.Answered? && r.success
  }
}
